=== FILE: README.md ===
# Atlantis pearl routing — a Dafny model of the decision engine

The Atlantis service is a pipeline of workers (nautiloids) joined by
neighbour edges. It reads one JSON state per line, decides for every worker
holding pearls what it does this tick, and prints one action object per
line. Worker 0 is the gatekeeper. A worker either passes a pearl to a
worker (`Pass`) or eats a layer of one of its own pearls (`Nom`). This
project models the engine behind that loop as pure functions and proves
what each step promises:

- **Ability table** (`Abilities`): the table is indexed by flavour name,
  then by colour name. An unknown name is an error value; in the source it
  is a panic.
- **Time to process** (`Timing`): a pearl's time is the sum, over its
  layers, of the layer's thickness divided by the worker's rate for that
  colour, rounded up.
- **Worker ids, desk sizes and the neighbour graph** (`NeighborGraph`,
  `Routing.PearlCounts`):
  - the ids are sorted;
  - the edge list is validated in order, and the first bad endpoint stops
    the build;
  - each worker gets its adjacency list in edge order, and duplicate edges
    are kept.
- **The routing heuristic** (`Routing`):
  - the idle neighbours are found;
  - the offload choice is the last qualifying (neighbour, pearl) pair;
  - the nom choice is the first unfinished pearl of least time.
- **`determine_actions`** (`Decide`, with `Rules` stating each rule on its
  own): a left fold over the busy workers in state order. It threads the
  action map, the projected desk sizes and the path memory (pearl id →
  stack of workers it passed through). Each worker takes the first rule
  that applies:
  1. return its first finished pearl to the top of that pearl's path;
  2. otherwise offload to an idle neighbour;
  3. otherwise nom.
- **The per-line loop** (`Pipeline`): build the graph, then decide. The
  path memory is carried from line to line.
- **`get_action_string`** (`Encoder`): the action map is written as a
  JSON-like object. A decoder for exactly that format is the encoder's
  partner: decoding an encoded line gives back its entries.
- **The repository's unit-test fixtures** (`Scenarios`), together with a
  two-tick run in which a pearl goes out and comes back.

Every `panic!`, failed `unwrap` and out-of-bounds index in the core becomes
a variant of `Errors.Error` returned in a `Result`. The helpers `make_pass`
and `make_nom` are the two constructors of `Models.Action`.

## Model

| member | source | states |
|---|---|---|
| Abilities.FlavorRates | src/models/ability_map.rs:28-38 | indexing succeeds exactly for General, Vector and Matrix, returns that field, and any other name is an unknown-flavour error |
| Abilities.ColorRate | src/models/ability_map.rs:40-50 | indexing succeeds exactly for Red, Green and Blue, returns that field, and any other name is an unknown-colour error |
| Abilities.RateOf | src/processing/utils.rs:198-199 | a double lookup succeeds iff both names are known; an unknown flavour is reported before an unknown colour |
| Abilities.RateOfAntitone | src/models/ability_map.rs:28-50 | a table that is at least as fast everywhere succeeds on the same names and yields rates at least as high |
| Timing.CeilDiv | src/processing/utils.rs:198-200 | the layer time is the least number of ticks whose total dissolving covers the thickness |
| Timing.CeilDivMonotone | src/processing/utils.rs:198-200 | a thicker layer never takes fewer ticks |
| Timing.CeilDivAntitone | src/processing/utils.rs:198-200 | a higher rate never takes more ticks |
| Timing.LayersTime | src/processing/utils.rs:194-206 | the time is defined iff the pearl has no layers or the flavour and every layer colour are known; failures are lookup errors |
| Timing.TimeToProcess | src/processing/utils.rs:194-206 | a pearl's time is defined iff it is finished or the worker's flavour and every layer colour are known; failures are lookup errors |
| Timing.TimeOfFinished | src/processing/utils.rs:194-206 | a finished pearl takes zero ticks for any worker, even one of unknown flavour |
| Timing.LayersTimeAppend | src/processing/utils.rs:197-203 | the time of two layer lists back to back is the sum of their times |
| Timing.LayersTimeMonotone | src/processing/utils.rs:197-203 | thinning any layers never increases the time, and never changes whether it is defined |
| Timing.LayersTimeAntitone | src/processing/utils.rs:197-203 | a faster table never increases the time, and never changes whether it is defined |
| Timing.SingleLayerTime | src/processing/utils.rs:197-203 | a one-layer pearl takes exactly its layer's rounded-up quotient |
| NeighborGraph.SortIds | src/processing/utils.rs:58 | the result is sorted and is a permutation of the input |
| NeighborGraph.WorkerIds | src/processing/utils.rs:50-60 | the ids are sorted ascending, are a permutation of the ids in state order, and are exactly the workers' ids |
| NeighborGraph.EdgeError | src/processing/utils.rs:123-130 | an edge raises no error iff it has two endpoints that are both worker ids; an unknown endpoint 0 is named first, then an unknown endpoint 1, and an edge too short to index is malformed |
| NeighborGraph.FirstEdgeError | src/processing/utils.rs:121-131 | no error iff every edge is valid; otherwise the error is the one raised by the first invalid edge |
| NeighborGraph.BuildNeighborGraph | src/processing/utils.rs:114-142 | on success there is one entry per worker id; the build fails iff there is a worker and some edge is invalid, and then with the first edge's error |
| NeighborGraph.GraphMultiplicity | src/processing/utils.rs:132-136 | b occurs in a's list once per edge between a and b, in either orientation |
| NeighborGraph.GraphSymmetric | src/processing/utils.rs:132-136 | the built graph is symmetric, and duplicate edges are counted on both sides |
| NeighborGraph.GraphClosed | src/processing/utils.rs:121-136 | every neighbour in a built graph is a worker id |
| NeighborGraph.AdjacentAppend | src/processing/utils.rs:121-136 | the neighbours contributed by a concatenated edge list are those of the first part followed by those of the second |
| NeighborGraph.GraphIsAdjacent | src/processing/utils.rs:118-139 | a built graph holds each worker's adjacency list over the whole edge list, in edge order |
| NeighborGraph.GraphOneEdge | src/processing/utils.rs:132-136 | one edge gives each endpoint the other endpoint, a self-loop gives its worker itself once, and any other worker gets nothing |
| NeighborGraph.GraphAppend | src/processing/utils.rs:121-136 | neighbour lists follow edge-list order: building from two concatenated edge lists gives each worker the first part's neighbours, then the second part's |
| NeighborGraph.IsolatedWorkerHasNoNeighbors | src/processing/utils.rs:118-139 | a worker named by no edge still gets an entry, and the entry is empty |
| Routing.PearlCounts | src/processing/utils.rs:81-89 | one entry per worker id, holding the desk size of the last worker with that id |
| Routing.PearlCountsDistinct | src/processing/utils.rs:84-86 | with distinct ids every worker's entry is its own desk size |
| Routing.RetainIdle | src/processing/utils.rs:225 | fails iff some id has no count (with that id's error); otherwise keeps, in order and with their multiplicity, exactly the ids whose count is 0 |
| Routing.EmptyNeighbors | src/processing/utils.rs:219-228 | a missing adjacency list is an error; otherwise the result is the idle neighbours, in adjacency order and with multiplicity, or a missing-count error for a listed neighbour |
| Routing.FindWorker | src/processing/utils.rs:262-263 | finds a worker iff the id is a worker id, and returns the first worker with that id |
| Routing.ScanDesk | src/processing/utils.rs:259-277 | the inner scan succeeds iff every lookup for every pearl succeeds; failures are lookup errors or an unknown neighbour |
| Routing.ScanDeskLast | src/processing/utils.rs:259-277 | the inner scan ends on the last qualifying pearl, or keeps the earlier choice when none qualifies |
| Routing.ScanNeighbors | src/processing/utils.rs:258-278 | the outer scan succeeds iff every (neighbour, pearl) lookup succeeds |
| Routing.ScanNeighborsLast | src/processing/utils.rs:258-278 | the outer scan ends on the last qualifying pair in neighbour-major order, or keeps the earlier choice |
| Routing.BestNeighbor | src/processing/utils.rs:248-279 | a missing neighbour list or count fails exactly as the idle-neighbour step does; otherwise the choice succeeds iff every (idle neighbour, desk pearl) lookup succeeds; a chosen target is an idle neighbour of the worker and names a pearl on its desk |
| Routing.BestNeighborIsLastQualifying | src/processing/utils.rs:258-278 | the choice is None iff no pair qualifies, and otherwise it is the last qualifying pair |
| Routing.NomScan | src/processing/utils.rs:301-316 | the scan succeeds iff every unfinished pearl can be timed |
| Routing.NomScanFirstMinimal | src/processing/utils.rs:301-316 | the scan settles on the first unfinished pearl of least time, replacing the running choice only by a strictly faster pearl |
| Routing.BestPearlToNom | src/processing/utils.rs:293-319 | succeeds iff every unfinished desk pearl can be timed; failures are lookup errors |
| Routing.BestPearlToNomIsFirstMinimal | src/processing/utils.rs:293-319 | the choice is None iff every desk pearl is finished, and otherwise it is the first unfinished pearl of least time |
| Decide.FirstFinished | src/processing/utils.rs:367-368 | finds the position of the first finished pearl, or None iff there is no finished pearl |
| Decide.Push | src/processing/utils.rs:407-410 | the worker goes on top of the pearl's path, a missing path is created, and the other paths are unchanged |
| Decide.Pop | src/processing/utils.rs:370-380 | a missing path or an empty path is an error, and the pop succeeds exactly when the path is present and non-empty; it then removes the top and leaves the other paths unchanged |
| Decide.PopAfterPush | src/processing/utils.rs:375-410 | a pop after a push yields the pushed worker and restores the pearl's earlier path |
| Decide.ReturnFinished | src/processing/utils.rs:366-386 | returning succeeds exactly when the pearl's path is present and non-empty; it adds exactly one Pass, for this worker and about this pearl, addressed to the top of the path, which it pops; the counts and the other paths are unchanged, and the only errors are the broken-path ones |
| Decide.Offload | src/processing/utils.rs:401-413 | offloading adds exactly one Pass for the worker and keeps the count keys; no other worker's count drops; the path memory gains at most the passed pearl, and every other path is unchanged |
| Decide.ReturnCandidate | src/processing/utils.rs:366-368 | there is a pearl to return iff the worker is not the gatekeeper and holds a finished pearl, and that pearl is on its desk |
| Decide.NomBest | src/processing/utils.rs:415-425 | nomming succeeds iff every unfinished desk pearl can be timed and one exists; it adds one fitting action and changes neither counts nor paths; with every pearl finished it fails with nothing to nom |
| Decide.OffloadOrNom | src/processing/utils.rs:392-426 | rules 2 and 3 succeed iff the neighbour choice succeeds and either picks a target or leaves an unfinished, timeable pearl to nom; they add one fitting action, and no other worker's count drops |
| Decide.Act | src/processing/utils.rs:361-427 | a turn adds exactly one action, addressed to the worker and naming a pearl on its desk; with a graph built for the state only tick errors remain |
| Decide.Fold | src/processing/utils.rs:361-428 | the fold adds an action for exactly the queued workers and leaves earlier actions alone |
| Decide.FoldFits | src/processing/utils.rs:361-428 | every action of the fold names a worker of the state and fits it |
| Decide.FoldNothingToNomOnlyGatekeeper | src/processing/utils.rs:366-423 | only the gatekeeper can fail with nothing to nom |
| Decide.FoldTickErrors | src/processing/utils.rs:361-428 | with a matching graph and counts, a fold fails only with a lookup error, a broken path or nothing to nom |
| Decide.Eligible | src/processing/utils.rs:358-359 | the queue holds exactly the workers whose count is nonzero |
| Decide.EligibleDistinct | src/processing/utils.rs:358-359 | filtering keeps worker ids distinct |
| Decide.EligibleReady | src/processing/utils.rs:354-359 | the queue is ready for the fold, and its ids are exactly the ids of workers holding pearls |
| Decide.ActPathsFrame | src/processing/utils.rs:366-413 | one turn changes the path memory only for the pearl its action passes: no path is dropped, a new path appears only for that pearl, and a nom leaves the memory alone |
| Decide.FoldPathsFrame | src/processing/utils.rs:361-428 | over a whole fold, no path is dropped, a path appears only for a pearl some action passes, and a pearl nobody passes keeps its path |
| Decide.DetermineActions | src/processing/utils.rs:348-431 | on success exactly the busy workers get actions, and each action fits its worker; only the gatekeeper can have nothing to nom; the returned path memory differs from the given one only for pearls that some action passes, and drops no path |
| Rules.ReturnCandidateFirst | src/processing/utils.rs:366-368 | the pearl returned is the first finished pearl on the desk |
| Rules.ActReturnsFinished | src/processing/utils.rs:366-386 | rule 1 passes the first finished pearl to the top of its path and pops it; other paths and the counts are unchanged; a missing or empty path is an error |
| Rules.ActOffloads | src/processing/utils.rs:392-414 | rule 2 passes to an idle neighbour other than the worker and moves one unit of count; a pop afterwards gives the worker back |
| Rules.ActNoms | src/processing/utils.rs:415-425 | when every pearl can be timed and one is unfinished, rule 3 succeeds and noms the first fastest unfinished pearl; it fails with nothing to nom iff every pearl is finished, and with a lookup error when a pearl cannot be timed |
| Rules.ActSucceeds | src/processing/utils.rs:361-427 | a turn succeeds exactly when rule 1 applies and the pearl's path is present and non-empty, or, when rule 1 does not apply, the neighbour choice succeeds and either picks a target or leaves an unfinished, timeable pearl to nom |
| Rules.ActNeighborFailure | src/processing/utils.rs:392-399 | a failed neighbour choice fails the turn with the same error |
| Pipeline.BuiltGraphFor | src/processing/pearl_pipeline.rs:42-45 | the graph built from a state has exactly the state's workers as keys, and every neighbour is one of those workers |
| Pipeline.ProcessTick | src/processing/pearl_pipeline.rs:41-45 | a bad edge fails the line before any decision, with the first edge's error; otherwise only tick errors remain, and successful actions cover exactly the busy workers |
| Pipeline.Run | src/processing/pearl_pipeline.rs:33-56 | a successful run prints one action map per input line |
| Pipeline.RunActsForBusy | src/processing/pearl_pipeline.rs:33-56 | every line of a successful run acts for exactly its busy workers, with fitting actions |
| Pipeline.RunHead | src/processing/pearl_pipeline.rs:33-56 | a successful run starts with a successful first line, followed by the run of the rest from its path memory |
| Pipeline.RunAppend | src/processing/pearl_pipeline.rs:25-56 | running two batches of lines one after the other is running their concatenation; the path memory is the only state carried over |
| Encoder.NatToString | src/processing/utils.rs:452-453 | an id renders as a non-empty digit string, with a leading 0 only for the number 0 itself |
| Encoder.NatToStringValue | src/processing/utils.rs:452-453 | a rendered id reads back as the same number |
| Encoder.ParseNatString | src/processing/utils.rs:452-460 | a rendered number followed by a non-digit parses back exactly |
| Encoder.GetActionString | src/processing/utils.rs:444-475 | an empty action map is written as `{}` |
| Encoder.GetActionStringIsJoin | src/processing/utils.rs:444-475 | dropping the trailing comma gives the entries joined by single commas inside braces |
| Encoder.ParseEntryString | src/processing/utils.rs:449-463 | one encoded entry reads back as itself, whatever follows it |
| Encoder.ParseListJoin | src/processing/utils.rs:447-466 | a comma-joined list of entries followed by the closing brace reads back as the same entries |
| Encoder.DecodeGetActionString | src/processing/utils.rs:444-475 | decoding an encoded action map gives back its entries in the order they were written |
| Encoder.DecodeRebuildsMap | src/processing/utils.rs:444-475 | the decoded entries rebuild the action map exactly: every key once, with its action |
| Scenarios.WorkerIdsExample | src/processing/tests/test_utils.rs:47-60 | the fixture workers give ids [0, 1], and no workers give no ids |
| Scenarios.PearlCountsExample | src/processing/tests/test_utils.rs:62-68 | the fixture gives the gatekeeper 0 pearls and the Matrix worker 2 |
| Scenarios.NeighborGraphExample | src/processing/tests/test_utils.rs:70-76 | one edge gives 0 → [1] and 1 → [0] |
| Scenarios.BadNeighborListExample | src/processing/tests/test_utils.rs:78-86 | an edge naming worker 2 fails the build with an unknown-worker error |
| Scenarios.TimeExample | src/processing/tests/test_utils.rs:108-117 | the 12-thick green pearl takes 3 ticks for Vector and 6 for Matrix |
| Scenarios.EmptyNeighborsExample | src/processing/tests/test_utils.rs:119-131 | the gatekeeper has no idle neighbour; the Matrix worker's only idle neighbour is 0 |
| Scenarios.OneBusyTick | src/processing/utils.rs:358-361 | a tick in which one worker holds pearls is that worker's turn |
| Scenarios.ReturnTickExample | src/processing/utils.rs:366-386 | the Matrix worker returns its finished pearl 67890 to the gatekeeper and empties its path |
| Scenarios.BestNeighborExample | src/processing/utils.rs:248-279 | the Matrix worker picks the idle, faster Vector worker for its green pearl |
| Scenarios.GatekeeperPassesFinishedExample | src/processing/utils.rs:258-276 | a gatekeeper holding a finished pearl and a green pearl hands the finished one to its idle Matrix neighbour, because both take 0 ticks for it and its desk holds more than one pearl |
| Scenarios.HandOffTickExample | src/processing/utils.rs:392-414 | the first tick passes the pearl to the Vector worker and records the Matrix worker on its path |
| Scenarios.ReturnedTickExample | src/processing/utils.rs:366-386 | once the pearl is finished, the Vector worker passes it back along the recorded path |
| Scenarios.RoundTripRunExample | src/processing/pearl_pipeline.rs:25-56 | over two lines the pearl goes out and comes back, and its path ends empty |
| Scenarios.NomLineExample | src/processing/utils.rs:456-475 | worker 0 nomming pearl 7 prints `{"0":{"Nom":7}}` |

The comment at src/processing/utils.rs:363 says that finished pearls stay
with the gatekeeper. The code differs in two ways, and the model follows
the code:

- A gatekeeper holding only finished pearls is never told to keep them.
  If it has no idle neighbour that qualifies, it has nothing to nom and
  the code panics (utils.rs:415-425); the model returns `NothingToNom(0)`.
  Any other worker holding a finished pearl returns it, so only the
  gatekeeper can reach this error (`Decide.FoldNothingToNomOnlyGatekeeper`).
- A gatekeeper holding more than one pearl can pass a finished pearl to an
  idle neighbour. Both take 0 ticks for it, and the offload test at
  utils.rs:269 admits a tie when the desk holds more than one pearl
  (`Scenarios.GatekeeperPassesFinishedExample`).

What the edge loop at src/processing/utils.rs:118-139 does, as the model
states it:

- With no workers, the loop never runs: the edge list is not validated
  and the graph is empty.
- A self-loop edge `[a, a]` is not rejected: `a` appears once in its own
  adjacency list.
- An edge with more than two entries is accepted; only its first two are
  read.

## Left out

- Reading stdin, JSON parsing of the states and printing are not modelled. `Pipeline.Run` takes the already parsed states, and the result of printing is `Encoder.GetActionString`.
- `get_ability_map` reads a JSON file from disk. The table is a parameter, and the scenarios assume only the two entries the tests rely on: Vector/Green 5 and Matrix/Green 2. The file itself is not part of this model.
- `src/processing.rs`, `src/main.rs`, the serde derivations in `src/models/state.rs` and `src/models/action.rs` are entry points and data glue, and are not modelled.
- Timing.CeilDiv: the source divides as `f32` and rounds up. The model uses the exact integer ceiling, which agrees for thicknesses and rates small enough to be exact in `f32`.
- Timing.LayersTime: does not model `u32` overflow of the running total; times are unbounded naturals.
- Abilities.RateOf: table entries are positive rates. The source's `i32` entries could be zero or negative, and then the `f32` quotient is infinite or negative before the cast; those tables are outside the model.
- Decide.DetermineActions: requires distinct worker ids. With repeated ids the source's count map merges workers, and a later turn overwrites an earlier action; the model does not follow that.
- Decide.DetermineActions: when a whole tick succeeds is stated per turn (`Rules.ActSucceeds`). A tick succeeds when every turn of the fold succeeds from the counts and paths the earlier turns leave, and no closed condition on the state alone is given.
- Decide.Eligible: the contract states membership in both directions, but not that the filter keeps state order. The definition does keep it, and the fold runs the queue in that order.
- Pipeline.Run: a failure discards the action lines of the earlier states. The source has already printed those lines before it panics on the failing state.
- Encoder.GetActionString: the hash map's iteration order is unspecified in the source, so the order is a parameter (any enumeration of the keys). Every property is stated for every such order.
- Worker, pearl and edge ids are unbounded naturals standing for `u32`; a projected count never underflows, because only a busy worker gives one away.
- The decoder in `Encoder` (`Decode`, `ParseList` and their helpers) is not in the source. It exists only as the encoder's partner for the round-trip property.

=== FILE: abilities.dfy ===
/** The static ability table: for each worker flavour, the rate (thickness
    dissolved per tick) at which it eats each layer colour. Lookups by name
    fail on any name the table has no field for. */
module Abilities {
  import opened Wrappers
  import opened Errors

  /** Rates are positive; a zero or negative rate is outside the model. */
  type Rate = r: int | r > 0 witness 1

  /** The per-colour rates of one flavour. */
  datatype Color = Color(red: Rate, green: Rate, blue: Rate)

  /** The whole table, one `Color` record per flavour. */
  datatype AbilityMap = AbilityMap(general: Color, vector: Color, matrix: Color)

  const FlavorNames: set<string> := {"General", "Vector", "Matrix"}
  const ColorNames: set<string> := {"Red", "Green", "Blue"}

  /** Indexing the table by a flavour name. */
  function FlavorRates(m: AbilityMap, flavor: string): (r: Result<Color, Error>)
    ensures r.Success? <==> flavor in FlavorNames
    ensures flavor == "General" ==> r == Success(m.general)
    ensures flavor == "Vector" ==> r == Success(m.vector)
    ensures flavor == "Matrix" ==> r == Success(m.matrix)
    ensures r.Failure? ==> r.error == UnknownFlavor(flavor)
  {
    match flavor
    case "General" => Success(m.general)
    case "Vector" => Success(m.vector)
    case "Matrix" => Success(m.matrix)
    case _ => Failure(UnknownFlavor(flavor))
  }

  /** Indexing one flavour's record by a colour name. */
  function ColorRate(c: Color, color: string): (r: Result<Rate, Error>)
    ensures r.Success? <==> color in ColorNames
    ensures color == "Red" ==> r == Success(c.red)
    ensures color == "Green" ==> r == Success(c.green)
    ensures color == "Blue" ==> r == Success(c.blue)
    ensures r.Failure? ==> r.error == UnknownColor(color)
  {
    match color
    case "Red" => Success(c.red)
    case "Green" => Success(c.green)
    case "Blue" => Success(c.blue)
    case _ => Failure(UnknownColor(color))
  }

  /** `ability_map[flavor][color]`: the flavour is looked up first, so an
      unknown flavour is reported even when the colour is unknown too. */
  function RateOf(m: AbilityMap, flavor: string, color: string): (r: Result<Rate, Error>)
    ensures r.Success? <==> flavor in FlavorNames && color in ColorNames
    ensures flavor !in FlavorNames ==> r == Failure(UnknownFlavor(flavor))
    ensures flavor in FlavorNames && color !in ColorNames ==> r == Failure(UnknownColor(color))
  {
    var c :- FlavorRates(m, flavor);
    ColorRate(c, color)
  }

  /** `fast` dissolves every colour at least as quickly as `slow`, for every
      flavour. */
  predicate AtLeastAsFast(fast: AbilityMap, slow: AbilityMap)
  {
    && ColorAtLeastAsFast(fast.general, slow.general)
    && ColorAtLeastAsFast(fast.vector, slow.vector)
    && ColorAtLeastAsFast(fast.matrix, slow.matrix)
  }

  predicate ColorAtLeastAsFast(fast: Color, slow: Color)
  {
    fast.red >= slow.red && fast.green >= slow.green && fast.blue >= slow.blue
  }

  /** A faster table gives a rate at least as high for every name pair, and
      it succeeds or fails on exactly the same names. */
  lemma RateOfAntitone(fast: AbilityMap, slow: AbilityMap, flavor: string, color: string)
    requires AtLeastAsFast(fast, slow)
    ensures RateOf(fast, flavor, color).Success? == RateOf(slow, flavor, color).Success?
    ensures RateOf(fast, flavor, color).Success? ==>
              RateOf(fast, flavor, color).value >= RateOf(slow, flavor, color).value
  {
  }
}

=== FILE: decide.dfy ===
/** `determine_actions`: one left fold over the workers that hold pearls,
    in state order, threading the action map, the projected desk sizes and
    the cross-tick path memory. Each worker first returns a finished pearl
    along its recorded path, otherwise offloads to an idle neighbour, and
    otherwise noms a pearl. */
module Decide {
  import opened Wrappers
  import opened Errors
  import opened Models
  import opened Abilities
  import opened Timing
  import opened NeighborGraph
  import opened Routing

  /** Path memory: pearl id -> stack of worker ids it was passed through,
      oldest first. */
  type Paths = map<nat, seq<nat>>

  /** What the fold threads from one worker to the next. */
  datatype Decision = Decision(actions: map<nat, Action>, counts: Counts, paths: Paths)

  /** What one tick hands back: the actions, and the path memory to carry
      into the next tick. */
  datatype TickResult = TickResult(actions: map<nat, Action>, paths: Paths)

  /** The worker an action is addressed to. */
  function Actor(a: Action): nat
  {
    match a
    case Pass(from, _, _) => from
    case Nom(who, _) => who
  }

  /** The position of the first finished pearl on a desk. */
  function FirstFinished(desk: seq<Pearl>): (r: Option<nat>)
    ensures r.None? <==> forall k :: 0 <= k < |desk| ==> !desk[k].Finished()
    ensures r.Some? ==> r.value < |desk| && desk[r.value].Finished()
                        && forall k :: 0 <= k < r.value ==> !desk[k].Finished()
  {
    if |desk| == 0 then None
    else if desk[0].Finished() then Some(0)
    else
      match FirstFinished(desk[1..])
      case None => None
      case Some(k) => Some(k + 1)
  }

  /** Pushing worker `id` on pearl `pid`'s path, creating it if absent. */
  function Push(paths: Paths, pid: nat, id: nat): (r: Paths)
    ensures r.Keys == paths.Keys + {pid}
    ensures |r[pid]| == (if pid in paths then |paths[pid]| else 0) + 1
    ensures r[pid][|r[pid]| - 1] == id
    ensures forall q :: q in paths && q != pid ==> r[q] == paths[q]
  {
    paths[pid := (if pid in paths then paths[pid] else []) + [id]]
  }

  /** Popping the top of pearl `pid`'s path: the popped worker and the
      shortened memory, or the error for a missing or empty path. */
  function Pop(paths: Paths, pid: nat): (r: Result<(nat, Paths), Error>)
    ensures pid !in paths ==> r == Failure(MissingPath(pid))
    ensures pid in paths && |paths[pid]| == 0 ==> r == Failure(EmptyPath(pid))
    ensures r.Success? <==> pid in paths && |paths[pid]| > 0
    ensures r.Success? ==> var (top, rest) := r.value;
              && rest.Keys == paths.Keys
              && rest[pid] + [top] == paths[pid]
              && forall q :: q in paths && q != pid ==> rest[q] == paths[q]
  {
    if pid !in paths then Failure(MissingPath(pid))
    else if |paths[pid]| == 0 then Failure(EmptyPath(pid))
    else
      var stack := paths[pid];
      assert stack[..|stack| - 1] + [stack[|stack| - 1]] == stack;
      Success((stack[|stack| - 1], paths[pid := stack[..|stack| - 1]]))
  }

  /** A pop undoes a push: it yields the pushed worker and restores the
      pearl's previous path (an empty one if it had none). */
  lemma PopAfterPush(paths: Paths, pid: nat, id: nat)
    ensures Pop(Push(paths, pid, id), pid).Success?
    ensures Pop(Push(paths, pid, id), pid).value.0 == id
    ensures Pop(Push(paths, pid, id), pid).value.1 ==
              paths[pid := if pid in paths then paths[pid] else []]
  {
    var before := if pid in paths then paths[pid] else [];
    assert (before + [id])[..|before|] == before;
  }

  /** Rule 1: pass the finished pearl `pid` back to the top of its path.
      Projected counts are left alone. */
  function ReturnFinished(w: Worker, pid: nat, d: Decision): (r: Result<Decision, Error>)
    ensures r.Success? <==> pid in d.paths && |d.paths[pid]| > 0
    ensures r.Success? ==> OneMoreAction(d, r.value, w.id) && r.value.actions[w.id].pearlId == pid
    ensures r.Failure? ==> r.error == MissingPath(pid) || r.error == EmptyPath(pid)
    ensures r.Success? ==> r.value.counts == d.counts
    ensures r.Success? ==> var a := r.value.actions[w.id];
              && a.Pass?
              && r.value.paths.Keys == d.paths.Keys
              && r.value.paths[pid] + [a.toId] == d.paths[pid]
              && forall q :: q in d.paths && q != pid ==> r.value.paths[q] == d.paths[q]
  {
    var (to, paths) :- Pop(d.paths, pid);
    Success(Decision(d.actions[w.id := Pass(w.id, pid, to)], d.counts, paths))
  }

  /** Rule 2: pass a pearl to an idle neighbour, push the worker on the
      pearl's path, and move one unit of projected count. */
  function Offload(w: Worker, t: Target, d: Decision): (r: Decision)
    requires w.id in d.counts && d.counts[w.id] > 0 && t.workerId in d.counts
    ensures OneMoreAction(d, r, w.id) && r.actions[w.id].pearlId == t.pearlId
    ensures r.counts.Keys == d.counts.Keys
    ensures forall x :: x in d.counts && x != w.id ==> r.counts[x] >= d.counts[x]
    ensures r.actions[w.id].Pass? && r.paths.Keys == d.paths.Keys + {t.pearlId}
    ensures forall q :: q in d.paths && q != t.pearlId ==> r.paths[q] == d.paths[q]
  {
    var shrunk := d.counts[w.id := d.counts[w.id] - 1];
    Decision(d.actions[w.id := Pass(w.id, t.pearlId, t.workerId)],
             shrunk[t.workerId := shrunk[t.workerId] + 1],
             Push(d.paths, t.pearlId, w.id))
  }

  /** The finished pearl a worker returns this tick, if any: the first one
      on its desk, and never for the gatekeeper. */
  function ReturnCandidate(w: Worker): (r: Option<nat>)
    ensures r.Some? <==> w.id != GatekeeperId && exists k :: 0 <= k < |w.desk| && w.desk[k].Finished()
    ensures r.Some? ==> exists k :: 0 <= k < |w.desk| && w.desk[k].Finished() && w.desk[k].id == r.value
  {
    if w.id == GatekeeperId then None
    else
      match FirstFinished(w.desk)
      case None => None
      case Some(k) => Some(w.desk[k].id)
  }

  /** `d'` is `d` with one more action, addressed to worker `id`, and no
      other action changed. */
  predicate OneMoreAction(d: Decision, d': Decision, id: nat)
  {
    && d'.actions.Keys == d.actions.Keys + {id}
    && Actor(d'.actions[id]) == id
    && forall k :: k in d.actions && k != id ==> d'.actions[k] == d.actions[k]
  }

  /** `a` is addressed to `w` and names a pearl on its desk; a nom never
      names a finished pearl. */
  predicate ActionFits(w: Worker, a: Action)
  {
    && Actor(a) == w.id
    && exists j :: 0 <= j < |w.desk| && w.desk[j].id == a.pearlId && (a.Nom? ==> !w.desk[j].Finished())
  }

  /** Rule 3: nom the pearl the nom choice picks; having nothing to nom is
      an error. */
  function NomBest(w: Worker, m: AbilityMap, d: Decision): (r: Result<Decision, Error>)
    ensures r.Success? ==> OneMoreAction(d, r.value, w.id) && ActionFits(w, r.value.actions[w.id])
    ensures r.Success? <==> AllNomOk(w, w.desk, m) && !AllFinished(w.desk)
    ensures r.Success? ==> r.value.counts == d.counts && r.value.paths == d.paths
    ensures r.Failure? ==> IsLookupError(r.error) || (r.error == NothingToNom(w.id) && AllFinished(w.desk))
    ensures AllNomOk(w, w.desk, m) && AllFinished(w.desk) ==> r == Failure(NothingToNom(w.id))
  {
    var pick :- BestPearlToNom(w, m);
    BestPearlToNomIsFirstMinimal(w, m);
    match pick
    case None => Failure(NothingToNom(w.id))
    case Some(pid) => Success(d.(actions := d.actions[w.id := Nom(w.id, pid)]))
  }

  predicate AllFinished(desk: seq<Pearl>)
  {
    forall j :: 0 <= j < |desk| ==> desk[j].Finished()
  }

  /** Every neighbour list of `g` is present for, and stays within, the
      workers `ws`: the graph was built from the same state. */
  predicate GraphFor(g: Graph, ws: seq<Worker>)
  {
    && g.Keys == IdSet(ws)
    && forall a, b :: a in g && b in g[a] ==> b in IdSet(ws)
  }

  /** The errors a tick can still raise once the graph and the counts
      agree with the workers. */
  predicate TickError(e: Error)
  {
    IsLookupError(e) || e.MissingPath? || e.EmptyPath? || e.NothingToNom?
  }

  /** Rules 2 and 3, tried once no finished pearl is being returned. */
  function OffloadOrNom(ws: seq<Worker>, m: AbilityMap, g: Graph, w: Worker, d: Decision): (r: Result<Decision, Error>)
    requires w.id in d.counts && d.counts[w.id] > 0
    ensures r.Success? <==>
              var best := BestNeighbor(ws, w, d.counts, m, g);
              best.Success? && (best.value.Some? || (AllNomOk(w, w.desk, m) && !AllFinished(w.desk)))
    ensures r.Success? ==> OneMoreAction(d, r.value, w.id) && ActionFits(w, r.value.actions[w.id])
    ensures r.Success? ==> r.value.counts.Keys == d.counts.Keys
    ensures r.Success? ==> forall x :: x in d.counts && x != w.id ==> r.value.counts[x] >= d.counts[x]
    ensures r.Failure? && r.error.NothingToNom? ==> AllFinished(w.desk)
    ensures r.Failure? && GraphFor(g, ws) && IdSet(ws) <= d.counts.Keys && w.id in IdSet(ws) ==> TickError(r.error)
  {
    var best :- BestNeighbor(ws, w, d.counts, m, g);
    match best
    case Some(t) => Success(Offload(w, t, d))
    case None => NomBest(w, m, d)
  }

  /** The body of the loop of `determine_actions` for one worker: exactly
      one of return, offload or nom. */
  function Act(ws: seq<Worker>, m: AbilityMap, g: Graph, w: Worker, d: Decision): (r: Result<Decision, Error>)
    requires w.id in d.counts && d.counts[w.id] > 0
    ensures r.Success? ==> OneMoreAction(d, r.value, w.id) && ActionFits(w, r.value.actions[w.id])
    ensures r.Success? ==> r.value.counts.Keys == d.counts.Keys
    ensures r.Success? ==> forall x :: x in d.counts && x != w.id ==> r.value.counts[x] >= d.counts[x]
    ensures r.Failure? && r.error.NothingToNom? ==> w.id == GatekeeperId || |w.desk| == 0
    ensures r.Failure? && GraphFor(g, ws) && IdSet(ws) <= d.counts.Keys && w.id in IdSet(ws) ==> TickError(r.error)
  {
    match ReturnCandidate(w)
    case Some(pid) => ReturnFinished(w, pid, d)
    case None => OffloadOrNom(ws, m, g, w, d)
  }

  /** The fold may run on `queue` from `d`: distinct ids, and every queued
      worker still has a positive projected count. */
  predicate FoldReady(queue: seq<Worker>, counts: Counts)
  {
    && DistinctIds(queue)
    && forall i :: 0 <= i < |queue| ==> queue[i].id in counts && counts[queue[i].id] > 0 && |queue[i].desk| > 0
  }

  /** Every action names an existing worker and fits it. */
  predicate ActionsFit(ws: seq<Worker>, actions: map<nat, Action>)
  {
    forall k :: k in actions ==> exists i :: 0 <= i < |ws| && ws[i].id == k && ActionFits(ws[i], actions[k])
  }

  /** The loop of `determine_actions` over `queue`. */
  function Fold(ws: seq<Worker>, m: AbilityMap, g: Graph, queue: seq<Worker>, d: Decision)
    : (r: Result<Decision, Error>)
    requires FoldReady(queue, d.counts)
    ensures r.Success? ==> r.value.actions.Keys == d.actions.Keys + IdSet(queue)
    ensures r.Success? ==> forall k :: k in d.actions && k !in IdSet(queue) ==> r.value.actions[k] == d.actions[k]
    decreases |queue|
  {
    if |queue| == 0 then Success(d)
    else
      var d' :- Act(ws, m, g, queue[0], d);
      FoldReadyTail(ws, m, g, queue, d, d');
      IdSetCons(queue);
      Fold(ws, m, g, queue[1..], d')
  }

  /** Acting for the head of the queue leaves the rest ready. */
  lemma FoldReadyTail(ws: seq<Worker>, m: AbilityMap, g: Graph, queue: seq<Worker>, d: Decision, d': Decision)
    requires |queue| > 0 && FoldReady(queue, d.counts)
    requires Act(ws, m, g, queue[0], d) == Success(d')
    ensures FoldReady(queue[1..], d'.counts)
  {
    var tail := queue[1..];
    forall i | 0 <= i < |tail|
      ensures tail[i].id in d'.counts && d'.counts[tail[i].id] > 0
    {
      assert tail[i] == queue[i + 1];
    }
  }

  /** Within `ws`: every queued worker is a worker of the state. */
  predicate Within(queue: seq<Worker>, ws: seq<Worker>)
  {
    forall i :: 0 <= i < |queue| ==> queue[i] in ws
  }

  lemma WithinTail(queue: seq<Worker>, ws: seq<Worker>)
    requires |queue| > 0 && Within(queue, ws)
    ensures Within(queue[1..], ws) && queue[0] in ws && queue[0].id in IdSet(ws)
  {
    assert forall i :: 0 < i < |queue| ==> queue[i] == queue[1..][i - 1];
    var k :| 0 <= k < |ws| && ws[k] == queue[0];
  }

  /** Every action the fold adds names a worker of the state, is addressed
      to it and names a pearl on its desk; no nom names a finished pearl. */
  lemma {:induction false} FoldFits(ws: seq<Worker>, m: AbilityMap, g: Graph, queue: seq<Worker>, d: Decision)
    requires FoldReady(queue, d.counts) && Within(queue, ws) && ActionsFit(ws, d.actions)
    requires Fold(ws, m, g, queue, d).Success?
    ensures ActionsFit(ws, Fold(ws, m, g, queue, d).value.actions)
  {
    if |queue| > 0 {
      var d' := Act(ws, m, g, queue[0], d).value;
      FoldReadyTail(ws, m, g, queue, d, d');
      WithinTail(queue, ws);
      FoldFitsStep(ws, queue[0], d, d');
      FoldFits(ws, m, g, queue[1..], d');
    }
  }

  /** Only the gatekeeper can be left with nothing to nom: any other
      worker holding only finished pearls returns one of them. */
  lemma {:induction false} FoldNothingToNomOnlyGatekeeper(ws: seq<Worker>, m: AbilityMap, g: Graph,
                                                          queue: seq<Worker>, d: Decision)
    requires FoldReady(queue, d.counts)
    requires Fold(ws, m, g, queue, d).Failure?
    ensures Fold(ws, m, g, queue, d).error.NothingToNom? ==>
              Fold(ws, m, g, queue, d).error.workerId == GatekeeperId
  {
    if |queue| > 0 && Act(ws, m, g, queue[0], d).Success? {
      var d' := Act(ws, m, g, queue[0], d).value;
      FoldReadyTail(ws, m, g, queue, d, d');
      FoldNothingToNomOnlyGatekeeper(ws, m, g, queue[1..], d');
    }
  }

  /** When the graph and counts agree with the workers, the only errors
      left are unknown table names, broken paths and nothing to nom. */
  lemma {:induction false} FoldTickErrors(ws: seq<Worker>, m: AbilityMap, g: Graph, queue: seq<Worker>, d: Decision)
    requires FoldReady(queue, d.counts) && Within(queue, ws)
    requires GraphFor(g, ws) && d.counts.Keys == IdSet(ws)
    requires Fold(ws, m, g, queue, d).Failure?
    ensures TickError(Fold(ws, m, g, queue, d).error)
  {
    if |queue| > 0 {
      WithinTail(queue, ws);
      if Act(ws, m, g, queue[0], d).Success? {
        var d' := Act(ws, m, g, queue[0], d).value;
        FoldReadyTail(ws, m, g, queue, d, d');
        FoldTickErrors(ws, m, g, queue[1..], d');
      }
    }
  }

  lemma FoldFitsStep(ws: seq<Worker>, w: Worker, d: Decision, d': Decision)
    requires OneMoreAction(d, d', w.id) && ActionFits(w, d'.actions[w.id])
    ensures w in ws && ActionsFit(ws, d.actions) ==> ActionsFit(ws, d'.actions)
  {
    if w in ws && ActionsFit(ws, d.actions) {
      var i :| 0 <= i < |ws| && ws[i] == w;
      assert ws[i].id == w.id && ActionFits(ws[i], d'.actions[w.id]);
    }
  }

  /** Some action of `actions` passes pearl `q`. */
  predicate Passed(actions: map<nat, Action>, q: nat)
  {
    exists k :: k in actions && actions[k].Pass? && actions[k].pearlId == q
  }

  /** `after` is the path memory `before` changed only where the single
      action `a` passes a pearl. */
  predicate StepFrame(before: Paths, after: Paths, a: Action)
  {
    && before.Keys <= after.Keys
    && (forall q :: q in after && q !in before ==> a.Pass? && a.pearlId == q)
    && (forall q :: q in before && !(a.Pass? && a.pearlId == q) ==> after[q] == before[q])
  }

  /** `after` is the path memory `before` changed only for pearls passed in
      `actions`: no path is dropped, a path appears only for a passed pearl,
      and the path of a pearl nobody passed is kept. */
  predicate PathsFrame(before: Paths, after: Paths, actions: map<nat, Action>)
  {
    && before.Keys <= after.Keys
    && (forall q :: q in after && q !in before ==> Passed(actions, q))
    && (forall q :: q in before && !Passed(actions, q) ==> after[q] == before[q])
  }

  /** One turn touches the path memory only for the pearl its action
      passes: a return pops that pearl's path, an offload pushes onto it,
      and a nom leaves the memory alone. */
  lemma ActPathsFrame(ws: seq<Worker>, m: AbilityMap, g: Graph, w: Worker, d: Decision, d': Decision)
    requires w.id in d.counts && d.counts[w.id] > 0
    requires Act(ws, m, g, w, d) == Success(d')
    ensures StepFrame(d.paths, d'.paths, d'.actions[w.id])
  {
    match ReturnCandidate(w)
    case Some(pid) =>
      assert ReturnFinished(w, pid, d) == Success(d');
    case None =>
      var best := BestNeighbor(ws, w, d.counts, m, g);
      assert best.Success?;
      match best.value
      case Some(t) =>
        assert Offload(w, t, d) == d';
      case None =>
        assert NomBest(w, m, d) == Success(d');
  }

  /** The path-memory frame of a whole fold, when the queue's workers have
      no action yet. */
  lemma {:induction false} FoldPathsFrame(ws: seq<Worker>, m: AbilityMap, g: Graph, queue: seq<Worker>, d: Decision)
    requires FoldReady(queue, d.counts)
    requires forall i :: 0 <= i < |queue| ==> queue[i].id !in d.actions
    requires Fold(ws, m, g, queue, d).Success?
    ensures PathsFrame(d.paths, Fold(ws, m, g, queue, d).value.paths, Fold(ws, m, g, queue, d).value.actions)
  {
    if |queue| > 0 {
      var w := queue[0];
      var d' := Act(ws, m, g, w, d).value;
      var tail := queue[1..];
      FoldReadyTail(ws, m, g, queue, d, d');
      assert forall i :: 0 <= i < |tail| ==> tail[i] == queue[i + 1];
      assert forall i :: 0 <= i < |tail| ==> tail[i].id !in d'.actions;
      FoldPathsFrame(ws, m, g, tail, d');
      ActPathsFrame(ws, m, g, w, d, d');
      var fin := Fold(ws, m, g, tail, d').value;
      assert w.id !in IdSet(tail);
      assert fin.actions[w.id] == d'.actions[w.id];
      FramesCompose(d.paths, d'.paths, fin.paths, w.id, fin.actions);
    }
  }

  /** A step frame followed by a fold frame is a fold frame, once the
      step's action survives in the final actions. */
  lemma FramesCompose(p: Paths, p': Paths, p'': Paths, id: nat, actions: map<nat, Action>)
    requires id in actions
    requires StepFrame(p, p', actions[id]) && PathsFrame(p', p'', actions)
    ensures PathsFrame(p, p'', actions)
  {
    var a := actions[id];
    forall q | q in p'' && q !in p
      ensures Passed(actions, q)
    {
      if q in p' {
        assert a.Pass? && a.pearlId == q;
      }
    }
    forall q | q in p && !Passed(actions, q)
      ensures p''[q] == p[q]
    {
      assert !(a.Pass? && a.pearlId == q);
    }
  }

  /** The workers that hold at least one pearl, in state order (the
      source's `workers_with_pearls`). */
  function Eligible(ws: seq<Worker>, counts: Counts): (r: seq<Worker>)
    requires IdSet(ws) <= counts.Keys
    ensures forall i :: 0 <= i < |r| ==> r[i] in ws && counts[r[i].id] != 0
    ensures forall i :: 0 <= i < |ws| && counts[ws[i].id] != 0 ==> ws[i] in r
  {
    if |ws| == 0 then []
    else
      IdSetCons(ws);
      var rest := Eligible(ws[1..], counts);
      assert forall i :: 0 < i < |ws| ==> ws[i] == ws[1..][i - 1];
      if counts[ws[0].id] != 0 then [ws[0]] + rest else rest
  }

  /** Filtering keeps ids distinct. */
  lemma {:induction false} EligibleDistinct(ws: seq<Worker>, counts: Counts)
    requires IdSet(ws) <= counts.Keys && DistinctIds(ws)
    ensures DistinctIds(Eligible(ws, counts))
  {
    if |ws| > 0 {
      IdSetCons(ws);
      var tail := ws[1..];
      assert DistinctIds(tail) by {
        assert forall i :: 0 <= i < |tail| ==> tail[i] == ws[i + 1];
      }
      EligibleDistinct(tail, counts);
      var rest := Eligible(tail, counts);
      if counts[ws[0].id] != 0 {
        forall i | 0 <= i < |rest|
          ensures rest[i].id != ws[0].id
        {
          var k :| 0 <= k < |tail| && tail[k] == rest[i];
          assert ws[k + 1] == rest[i];
        }
        var r := [ws[0]] + rest;
        assert forall i :: 0 < i < |r| ==> r[i] == rest[i - 1];
      }
    }
  }

  /** The workers of `ws` that hold at least one pearl. */
  function BusyIds(ws: seq<Worker>): set<nat>
  {
    set i | 0 <= i < |ws| && |ws[i].desk| > 0 :: ws[i].id
  }

  /** `determine_actions`. Worker ids are taken to be distinct. Exactly the
      workers holding pearls get an action; each action is addressed to its
      key's worker and names a pearl on that worker's desk, and a nom never
      names a finished pearl. */
  function DetermineActions(st: State, m: AbilityMap, g: Graph, paths: Paths): (r: Result<TickResult, Error>)
    requires DistinctIds(st.workers)
    ensures r.Success? ==> r.value.actions.Keys == BusyIds(st.workers)
    ensures r.Success? ==> ActionsFit(st.workers, r.value.actions)
    ensures r.Failure? && r.error.NothingToNom? ==> r.error.workerId == GatekeeperId
    ensures r.Failure? && GraphFor(g, st.workers) ==> TickError(r.error)
    ensures r.Success? ==> PathsFrame(paths, r.value.paths, r.value.actions)
  {
    var current := PearlCounts(st.workers);
    var queue := Eligible(st.workers, current);
    EligibleReady(st.workers);
    var start := Decision(map[], current, paths);
    var fold := Fold(st.workers, m, g, queue, start);
    if fold.Failure? then
      FoldNothingToNomOnlyGatekeeper(st.workers, m, g, queue, start);
      assert GraphFor(g, st.workers) ==> TickError(fold.error) by {
        if GraphFor(g, st.workers) {
          FoldTickErrors(st.workers, m, g, queue, start);
        }
      }
      Failure(fold.error)
    else
      FoldFits(st.workers, m, g, queue, start);
      FoldPathsFrame(st.workers, m, g, queue, start);
      Success(TickResult(fold.value.actions, fold.value.paths))
  }

  /** The queue of busy workers is ready for the fold, and its ids are
      exactly the busy ids. */
  lemma EligibleReady(ws: seq<Worker>)
    requires DistinctIds(ws)
    ensures var current := PearlCounts(ws);
            && FoldReady(Eligible(ws, current), current)
            && IdSet(Eligible(ws, current)) == BusyIds(ws)
  {
    var current := PearlCounts(ws);
    PearlCountsDistinct(ws);
    EligibleDistinct(ws, current);
    EligibleIdsWithin(ws, current);
    EligibleIdsCover(ws, current);
  }

  lemma EligibleIdsWithin(ws: seq<Worker>, current: Counts)
    requires IdSet(ws) <= current.Keys
    requires forall i :: 0 <= i < |ws| ==> current[ws[i].id] == |ws[i].desk|
    ensures IdSet(Eligible(ws, current)) <= BusyIds(ws)
  {
    var q := Eligible(ws, current);
    forall x | x in IdSet(q)
      ensures x in BusyIds(ws)
    {
      var i :| 0 <= i < |q| && q[i].id == x;
      var k :| 0 <= k < |ws| && ws[k] == q[i];
    }
  }

  lemma EligibleIdsCover(ws: seq<Worker>, current: Counts)
    requires IdSet(ws) <= current.Keys
    requires forall i :: 0 <= i < |ws| ==> current[ws[i].id] == |ws[i].desk|
    ensures BusyIds(ws) <= IdSet(Eligible(ws, current))
  {
    var q := Eligible(ws, current);
    forall x | x in BusyIds(ws)
      ensures x in IdSet(q)
    {
      var i :| 0 <= i < |ws| && |ws[i].desk| > 0 && ws[i].id == x;
      var k :| 0 <= k < |q| && q[k] == ws[i];
    }
  }
}

=== FILE: encoder.dfy ===
/** `get_action_string`: the action map written as one JSON-like object,
    `"id":{"Pass":{"pearl_id":p,"to_worker":t}}` or `"id":{"Nom":p}` per
    entry. The hash map's iteration order is a parameter: any enumeration
    of its keys. A small decoder for exactly this format is the encoder's
    partner: decoding an encoding gives back the entries in order. */
module Encoder {
  import opened Wrappers
  import opened Models

  predicate IsDigit(c: char)
  {
    '0' <= c <= '9'
  }

  predicate AllDigits(s: string)
  {
    forall i :: 0 <= i < |s| ==> IsDigit(s[i])
  }

  function DigitChar(d: nat): (c: char)
    requires d < 10
    ensures IsDigit(c) && c as int - '0' as int == d
  {
    (d + '0' as int) as char
  }

  function DigitValue(c: char): nat
    requires IsDigit(c)
  {
    c as int - '0' as int
  }

  /** Decimal rendering of a natural, without leading zeros. */
  function NatToString(n: nat): (s: string)
    ensures |s| > 0 && AllDigits(s)
    ensures (s[0] == '0') == (n == 0)
    ensures |s| > 1 ==> s[0] != '0'
  {
    if n < 10 then [DigitChar(n)] else NatToString(n / 10) + [DigitChar(n % 10)]
  }

  /** The number a string of decimal digits denotes. */
  function DigitsValue(s: string): nat
    requires AllDigits(s)
  {
    if |s| == 0 then 0 else DigitsValue(s[..|s| - 1]) * 10 + DigitValue(s[|s| - 1])
  }

  lemma {:induction false} NatToStringValue(n: nat)
    ensures DigitsValue(NatToString(n)) == n
  {
    if n >= 10 {
      NatToStringValue(n / 10);
      var s := NatToString(n);
      assert s[..|s| - 1] == NatToString(n / 10);
    }
  }

  /** Length of the longest all-digit prefix of `s`. */
  function DigitSpan(s: string): (k: nat)
    ensures k <= |s| && AllDigits(s[..k]) && (k < |s| ==> !IsDigit(s[k]))
  {
    if |s| == 0 || !IsDigit(s[0]) then 0
    else
      var k := DigitSpan(s[1..]) + 1;
      assert s[..k] == [s[0]] + s[1..][..k - 1];
      k
  }

  /** Reads a decimal natural at the front of `s`. */
  function ParseNat(s: string): (r: Option<(nat, string)>)
    ensures r.Some? ==> |r.value.1| < |s|
  {
    var k := DigitSpan(s);
    if k == 0 then None else Some((DigitsValue(s[..k]), s[k..]))
  }

  lemma {:induction false} DigitSpanOfDigits(d: string, rest: string)
    requires AllDigits(d)
    requires |rest| == 0 || !IsDigit(rest[0])
    ensures DigitSpan(d + rest) == |d|
  {
    if |d| > 0 {
      assert (d + rest)[1..] == d[1..] + rest;
      DigitSpanOfDigits(d[1..], rest);
    }
  }

  /** A rendered natural followed by a non-digit reads back exactly. */
  lemma ParseNatString(n: nat, rest: string)
    requires |rest| == 0 || !IsDigit(rest[0])
    ensures ParseNat(NatToString(n) + rest) == Some((n, rest))
  {
    var d := NatToString(n);
    DigitSpanOfDigits(d, rest);
    assert (d + rest)[..|d|] == d;
    assert (d + rest)[|d|..] == rest;
    NatToStringValue(n);
  }

  /** The body of one entry, after `"id":`. */
  function ActionBody(a: Action): string
  {
    match a
    case Pass(_, p, t) =>
      "{\"Pass\":{\"pearl_id\":" + (NatToString(p) + (",\"to_worker\":" + (NatToString(t) + "}}")))
    case Nom(_, p) => "{\"Nom\":" + (NatToString(p) + "}")
  }

  /** One entry of the object. */
  function EntryString(id: nat, a: Action): string
  {
    "\"" + (NatToString(id) + ("\":" + ActionBody(a)))
  }

  /** Every entry followed by a comma, in `order` (the loop of the source). */
  function EntriesWithCommas(actions: map<nat, Action>, order: seq<nat>): string
    requires forall i :: 0 <= i < |order| ==> order[i] in actions
  {
    if |order| == 0 then ""
    else EntryString(order[0], actions[order[0]]) + "," + EntriesWithCommas(actions, order[1..])
  }

  /** `order` lists every key of `keys` exactly once. */
  predicate Enumerates(order: seq<nat>, keys: set<nat>)
  {
    && (forall i, j :: 0 <= i < j < |order| ==> order[i] != order[j])
    && (forall i :: 0 <= i < |order| ==> order[i] in keys)
    && (forall k :: k in keys ==> k in order)
  }

  /** `get_action_string`, with the map visited in `order`: open brace,
      entries each followed by a comma, the last comma dropped when there
      was an entry, close brace. */
  function GetActionString(actions: map<nat, Action>, order: seq<nat>): (s: string)
    requires Enumerates(order, actions.Keys)
    ensures |actions| == 0 ==> s == "{}"
  {
    if |actions| == 0 then "{}"
    else
      var body := "{" + EntriesWithCommas(actions, order);
      body[..|body| - 1] + "}"
  }

  /** The entries of `actions` in `order`. */
  function Entries(actions: map<nat, Action>, order: seq<nat>): (es: seq<(nat, Action)>)
    requires forall i :: 0 <= i < |order| ==> order[i] in actions
    ensures |es| == |order|
    ensures forall i :: 0 <= i < |order| ==> es[i] == (order[i], actions[order[i]])
  {
    if |order| == 0 then [] else [(order[0], actions[order[0]])] + Entries(actions, order[1..])
  }

  /** Entries joined by single commas, no trailing comma. */
  function Join(es: seq<(nat, Action)>): string
  {
    if |es| == 0 then ""
    else if |es| == 1 then EntryString(es[0].0, es[0].1)
    else EntryString(es[0].0, es[0].1) + ("," + Join(es[1..]))
  }

  lemma {:induction false} WithCommasIsJoin(actions: map<nat, Action>, order: seq<nat>)
    requires |order| > 0
    requires forall i :: 0 <= i < |order| ==> order[i] in actions
    ensures EntriesWithCommas(actions, order) == Join(Entries(actions, order)) + ","
  {
    var es := Entries(actions, order);
    var head := EntryString(order[0], actions[order[0]]);
    if |order| > 1 {
      WithCommasIsJoin(actions, order[1..]);
      assert Entries(actions, order[1..]) == es[1..];
      assert Join(es) == head + ("," + Join(es[1..]));
    } else {
      assert EntriesWithCommas(actions, order[1..]) == "";
    }
  }

  /** Dropping the trailing comma leaves exactly the comma-joined entries
      between the braces. */
  lemma GetActionStringIsJoin(actions: map<nat, Action>, order: seq<nat>)
    requires Enumerates(order, actions.Keys)
    ensures GetActionString(actions, order) == "{" + Join(Entries(actions, order)) + "}"
  {
    if |actions| == 0 {
      NoActionsString(actions, order);
    } else {
      SomeActionsString(actions, order);
    }
  }

  lemma NoActionsString(actions: map<nat, Action>, order: seq<nat>)
    requires Enumerates(order, actions.Keys) && |actions| == 0
    ensures GetActionString(actions, order) == "{" + Join(Entries(actions, order)) + "}"
  {
    assert Entries(actions, order) == [];
  }

  lemma SomeActionsString(actions: map<nat, Action>, order: seq<nat>)
    requires Enumerates(order, actions.Keys) && |actions| > 0
    ensures GetActionString(actions, order) == "{" + Join(Entries(actions, order)) + "}"
  {
    var k :| k in actions;
    assert |order| > 0;
    WithCommasIsJoin(actions, order);
    var joined := Join(Entries(actions, order));
    var body := "{" + EntriesWithCommas(actions, order);
    AppendAssoc("{", joined, ",");
    DropLast("{" + joined, ',');
    assert GetActionString(actions, order) == body[..|body| - 1] + "}";
  }

  lemma AppendAssoc(a: string, b: string, c: string)
    ensures a + (b + c) == (a + b) + c
  {
  }

  lemma DropLast(x: string, c: char)
    ensures (x + [c])[..|x + [c]| - 1] == x
  {
  }

  // ---------------------------------------------------------------------
  // The decoder

  /** Consumes the literal `lit` at the front of `s`. */
  function Expect(lit: string, s: string): (r: Option<string>)
    ensures r.Some? ==> |r.value| == |s| - |lit|
  {
    if |lit| <= |s| && s[..|lit|] == lit then Some(s[|lit|..]) else None
  }

  lemma ExpectLiteral(lit: string, rest: string)
    ensures Expect(lit, lit + rest) == Some(rest)
  {
    assert (lit + rest)[..|lit|] == lit;
    assert (lit + rest)[|lit|..] == rest;
  }

  const PassHead: string := "{\"Pass\":{\"pearl_id\":"
  const NomHead: string := "{\"Nom\":"

  /** Reads the rest of a `Pass` body, after its opening. */
  function ParsePass(id: nat, s: string): (r: Option<(Action, string)>)
    ensures r.Some? ==> |r.value.1| < |s|
  {
    var (p, s1) :- ParseNat(s);
    var s2 :- Expect(",\"to_worker\":", s1);
    var (t, s3) :- ParseNat(s2);
    var s4 :- Expect("}}", s3);
    Some((Pass(id, p, t), s4))
  }

  /** Reads the rest of a `Nom` body, after its opening. */
  function ParseNom(id: nat, s: string): (r: Option<(Action, string)>)
    ensures r.Some? ==> |r.value.1| < |s|
  {
    var (p, s1) :- ParseNat(s);
    var s2 :- Expect("}", s1);
    Some((Nom(id, p), s2))
  }

  /** Reads an action body; the worker id from the entry's key becomes the
      action's actor. */
  function ParseBody(id: nat, s: string): (r: Option<(Action, string)>)
    ensures r.Some? ==> |r.value.1| < |s|
  {
    if |PassHead| <= |s| && s[..|PassHead|] == PassHead then ParsePass(id, s[|PassHead|..])
    else
      var s1 :- Expect(NomHead, s);
      ParseNom(id, s1)
  }

  /** Reads one `"id":body` entry. */
  function ParseEntry(s: string): (r: Option<((nat, Action), string)>)
    ensures r.Some? ==> |r.value.1| < |s|
  {
    var s1 :- Expect("\"", s);
    var (id, s2) :- ParseNat(s1);
    var s3 :- Expect("\":", s2);
    var (a, s4) :- ParseBody(id, s3);
    Some(((id, a), s4))
  }

  /** Reads entries separated by commas up to the closing brace. */
  function ParseList(s: string): Option<seq<(nat, Action)>>
    decreases |s|
  {
    var (e, rest) :- ParseEntry(s);
    if rest == "}" then Some([e])
    else
      var rest' :- Expect(",", rest);
      var more :- ParseList(rest');
      Some([e] + more)
  }

  /** Reads a whole action object. */
  function Decode(s: string): Option<seq<(nat, Action)>>
  {
    var body :- Expect("{", s);
    if body == "}" then Some([]) else ParseList(body)
  }

  /** Every action is addressed to the worker it is keyed by. */
  predicate WellKeyed(actions: map<nat, Action>)
  {
    forall k :: k in actions ==> match actions[k]
                                 case Pass(from, _, _) => from == k
                                 case Nom(who, _) => who == k
  }

  predicate EntryKeyed(e: (nat, Action))
  {
    match e.1
    case Pass(from, _, _) => from == e.0
    case Nom(who, _) => who == e.0
  }

  lemma ParsePassString(id: nat, p: nat, t: nat, rest: string)
    ensures ParsePass(id, NatToString(p) + (",\"to_worker\":" + (NatToString(t) + ("}}" + rest))))
            == Some((Pass(id, p, t), rest))
  {
    ParseNatString(p, ",\"to_worker\":" + (NatToString(t) + ("}}" + rest)));
    ExpectLiteral(",\"to_worker\":", NatToString(t) + ("}}" + rest));
    ParseNatString(t, "}}" + rest);
    ExpectLiteral("}}", rest);
  }

  lemma ParseNomString(id: nat, p: nat, rest: string)
    ensures ParseNom(id, NatToString(p) + ("}" + rest)) == Some((Nom(id, p), rest))
  {
    ParseNatString(p, "}" + rest);
    ExpectLiteral("}", rest);
  }

  lemma ParseBodyString(id: nat, a: Action, rest: string)
    requires match a
             case Pass(from, _, _) => from == id
             case Nom(who, _) => who == id
    ensures ParseBody(id, ActionBody(a) + rest) == Some((a, rest))
  {
    match a
    case Pass(_, p, t) => ParsePassBody(id, p, t, rest);
    case Nom(_, p) => ParseNomBody(id, p, rest);
  }

  lemma ParsePassBody(id: nat, p: nat, t: nat, rest: string)
    ensures ParseBody(id, ActionBody(Pass(id, p, t)) + rest) == Some((Pass(id, p, t), rest))
  {
    var s := ActionBody(Pass(id, p, t)) + rest;
    var tail := NatToString(p) + (",\"to_worker\":" + (NatToString(t) + ("}}" + rest)));
    assert s == PassHead + tail;
    assert s[..|PassHead|] == PassHead && s[|PassHead|..] == tail by {
      ExpectLiteral(PassHead, tail);
    }
    ParsePassString(id, p, t, rest);
  }

  lemma ParseNomBody(id: nat, p: nat, rest: string)
    ensures ParseBody(id, ActionBody(Nom(id, p)) + rest) == Some((Nom(id, p), rest))
  {
    var s := ActionBody(Nom(id, p)) + rest;
    var tail := NatToString(p) + ("}" + rest);
    assert s == NomHead + tail;
    assert s[2] == 'N' && PassHead[2] == 'P';
    ExpectLiteral(NomHead, tail);
    ParseNomString(id, p, rest);
  }

  /** An encoded entry reads back as itself, whatever follows it. */
  lemma ParseEntryString(e: (nat, Action), rest: string)
    requires EntryKeyed(e)
    ensures ParseEntry(EntryString(e.0, e.1) + rest) == Some((e, rest))
  {
    var body := ActionBody(e.1);
    var after := "\":" + (body + rest);
    assert EntryString(e.0, e.1) + rest == "\"" + (NatToString(e.0) + after);
    ExpectLiteral("\"", NatToString(e.0) + after);
    ParseNatString(e.0, after);
    ExpectLiteral("\":", body + rest);
    ParseBodyString(e.0, e.1, rest);
  }

  lemma {:induction false} ParseListJoin(es: seq<(nat, Action)>)
    requires |es| > 0
    requires forall i :: 0 <= i < |es| ==> EntryKeyed(es[i])
    ensures ParseList(Join(es) + "}") == Some(es)
  {
    if |es| == 1 {
      ParseListSingle(es);
    } else {
      var tail := es[1..];
      assert forall i :: 0 <= i < |tail| ==> tail[i] == es[i + 1];
      ParseListJoin(tail);
      ParseListStep(es);
    }
  }

  lemma ParseListSingle(es: seq<(nat, Action)>)
    requires |es| == 1 && EntryKeyed(es[0])
    ensures ParseList(Join(es) + "}") == Some(es)
  {
    ParseEntryString(es[0], "}");
    assert es == [es[0]];
  }

  /** One more entry in front of a list that reads back. */
  lemma ParseListStep(es: seq<(nat, Action)>)
    requires |es| > 1 && EntryKeyed(es[0])
    requires ParseList(Join(es[1..]) + "}") == Some(es[1..])
    ensures ParseList(Join(es) + "}") == Some(es)
  {
    var tail := es[1..];
    var after := "," + (Join(tail) + "}");
    JoinCons(es);
    ParseEntryString(es[0], after);
    ExpectLiteral(",", Join(tail) + "}");
    ParseListCons(Join(es) + "}", es[0], after, Join(tail) + "}", tail);
    HeadTail(es);
  }

  lemma HeadTail(es: seq<(nat, Action)>)
    requires |es| > 0
    ensures [es[0]] + es[1..] == es
  {
  }

  lemma JoinCons(es: seq<(nat, Action)>)
    requires |es| > 1
    ensures Join(es) + "}" == EntryString(es[0].0, es[0].1) + ("," + (Join(es[1..]) + "}"))
  {
  }

  lemma ParseListCons(s: string, e: (nat, Action), rest: string, rest': string, more: seq<(nat, Action)>)
    requires ParseEntry(s) == Some((e, rest))
    requires rest != "}" && Expect(",", rest) == Some(rest')
    requires ParseList(rest') == Some(more)
    ensures ParseList(s) == Some([e] + more)
  {
  }

  /** Decoding the action string gives back the map's entries, in the
      order they were written. */
  lemma DecodeGetActionString(actions: map<nat, Action>, order: seq<nat>)
    requires Enumerates(order, actions.Keys)
    requires WellKeyed(actions)
    ensures Decode(GetActionString(actions, order)) == Some(Entries(actions, order))
  {
    GetActionStringIsJoin(actions, order);
    var es := Entries(actions, order);
    assert "{" + Join(es) + "}" == "{" + (Join(es) + "}");
    ExpectLiteral("{", Join(es) + "}");
    if |order| == 0 {
      assert Join(es) + "}" == "}";
    } else {
      assert Join(es) + "}" != "}" by {
        assert |Join(es)| > 0 by {
          assert |EntryString(es[0].0, es[0].1)| > 0;
        }
      }
      assert forall i :: 0 <= i < |es| ==> EntryKeyed(es[i]);
      ParseListJoin(es);
    }
  }

  /** Hence the decoded entries rebuild the map exactly. */
  lemma DecodeRebuildsMap(actions: map<nat, Action>, order: seq<nat>)
    requires Enumerates(order, actions.Keys)
    requires WellKeyed(actions)
    ensures Decode(GetActionString(actions, order)).Some?
    ensures var es := Decode(GetActionString(actions, order)).value;
            && (forall i :: 0 <= i < |es| ==> es[i].0 in actions && actions[es[i].0] == es[i].1)
            && (forall k :: k in actions ==> exists i :: 0 <= i < |es| && es[i].0 == k)
  {
    DecodeGetActionString(actions, order);
  }
}

=== FILE: errors.dfy ===
/** Every way the decision engine can stop: each variant stands for one
    `panic!`, failed `unwrap` or out-of-bounds index in the source. */
module Errors {

  datatype Error =
      /** An edge endpoint that is not a worker id. */
    | UnknownWorker(id: nat)
      /** An edge with fewer than two entries. */
    | MalformedEdge(edge: seq<nat>)
      /** A flavour name the ability table has no field for. */
    | UnknownFlavor(flavor: string)
      /** A colour name the ability table has no field for. */
    | UnknownColor(color: string)
      /** The neighbour graph has no entry for an acting worker. */
    | MissingNeighborList(workerId: nat)
      /** A neighbour id with no projected pearl count. */
    | MissingCount(workerId: nat)
      /** An idle neighbour id that names no worker of the state. */
    | MissingWorker(workerId: nat)
      /** A finished pearl with no recorded path. */
    | MissingPath(pearlId: nat)
      /** A finished pearl whose recorded path is already empty. */
    | EmptyPath(pearlId: nat)
      /** A worker that could neither return, offload nor nom. */
    | NothingToNom(workerId: nat)

  /** A name the ability table does not know. */
  predicate IsLookupError(e: Error)
  {
    e.UnknownFlavor? || e.UnknownColor?
  }
}

=== FILE: graph.dfy ===
/** Building the neighbour graph: the sorted worker ids, validation of the
    edge list against them, and one adjacency list per worker in edge-list
    order with duplicate edges kept. */
module NeighborGraph {
  import opened Wrappers
  import opened Errors
  import opened Models

  /** Worker id -> neighbour ids. */
  type Graph = map<nat, seq<nat>>

  predicate Sorted(s: seq<nat>)
  {
    forall i, j :: 0 <= i < j < |s| ==> s[i] <= s[j]
  }

  /** Inserts `x` into sorted `s` in front of the first element not below it. */
  function Insert(x: nat, s: seq<nat>): (r: seq<nat>)
    requires Sorted(s)
    ensures Sorted(r)
    ensures multiset(r) == multiset{x} + multiset(s)
    ensures forall k :: 0 <= k < |r| ==> r[k] == x || r[k] in s
  {
    if |s| == 0 || x <= s[0] then [x] + s
    else
      var tail := Insert(x, s[1..]);
      assert s == [s[0]] + s[1..];
      [s[0]] + tail
  }

  function SortIds(s: seq<nat>): (r: seq<nat>)
    ensures Sorted(r)
    ensures multiset(r) == multiset(s)
  {
    if |s| == 0 then []
    else
      assert s == [s[0]] + s[1..];
      Insert(s[0], SortIds(s[1..]))
  }

  /** `get_worker_ids`: the worker ids, sorted ascending (so the gatekeeper
      comes first), as a permutation of the ids in state order. */
  function WorkerIds(ws: seq<Worker>): (ids: seq<nat>)
    ensures Sorted(ids)
    ensures multiset(ids) == multiset(Ids(ws))
    ensures forall x :: x in ids <==> x in IdSet(ws)
  {
    var ids := SortIds(Ids(ws));
    assert forall x :: x in ids <==> x in multiset(Ids(ws));
    assert forall x :: x in Ids(ws) <==> x in IdSet(ws);
    ids
  }

  /** An edge both of whose endpoints are known worker ids. */
  predicate ValidEdge(e: Edge, ids: seq<nat>)
  {
    |e| >= 2 && e[0] in ids && e[1] in ids
  }

  /** The panic one edge raises, checking endpoint 0 before endpoint 1. */
  function EdgeError(e: Edge, ids: seq<nat>): (r: Option<Error>)
    ensures r.None? <==> ValidEdge(e, ids)
    ensures |e| >= 1 && e[0] !in ids ==> r == Some(UnknownWorker(e[0]))
    ensures |e| >= 2 && e[0] in ids && e[1] !in ids ==> r == Some(UnknownWorker(e[1]))
    ensures |e| == 0 || (|e| == 1 && e[0] in ids) ==> r == Some(MalformedEdge(e))
  {
    if |e| < 1 then Some(MalformedEdge(e))
    else if e[0] !in ids then Some(UnknownWorker(e[0]))
    else if |e| < 2 then Some(MalformedEdge(e))
    else if e[1] !in ids then Some(UnknownWorker(e[1]))
    else None
  }

  /** The first panic raised by the edge list, scanning edges in order. */
  function FirstEdgeError(edges: seq<Edge>, ids: seq<nat>): (r: Option<Error>)
    ensures r.None? <==> forall i :: 0 <= i < |edges| ==> ValidEdge(edges[i], ids)
    ensures r.Some? ==>
              exists i :: 0 <= i < |edges| && EdgeError(edges[i], ids) == r
                          && forall k :: 0 <= k < i ==> ValidEdge(edges[k], ids)
  {
    if |edges| == 0 then None
    else if EdgeError(edges[0], ids).Some? then EdgeError(edges[0], ids)
    else
      var r := FirstEdgeError(edges[1..], ids);
      if r.Some? then
        var i :| 0 <= i < |edges[1..]| && EdgeError(edges[1..][i], ids) == r
                 && forall k :: 0 <= k < i ==> ValidEdge(edges[1..][k], ids);
        assert EdgeError(edges[i + 1], ids) == r;
        r
      else r
  }

  predicate WellFormed(edges: seq<Edge>)
  {
    forall i :: 0 <= i < |edges| ==> |edges[i]| >= 2
  }

  /** The neighbours of `id`: for each edge in order, the other endpoint
      when `id` is one of the two (a self-loop contributes `id` once). */
  function Adjacent(id: nat, edges: seq<Edge>): seq<nat>
    requires WellFormed(edges)
  {
    if |edges| == 0 then []
    else
      var e := edges[0];
      var here := if id == e[0] then [e[1]] else if id == e[1] then [e[0]] else [];
      here + Adjacent(id, edges[1..])
  }

  /** `build_neighbor_graph`. With no workers the edge loop never runs, so
      nothing is validated; otherwise the first bad edge endpoint stops the
      build, and each worker id is mapped to its adjacency list. */
  function BuildNeighborGraph(edges: seq<Edge>, ws: seq<Worker>): (r: Result<Graph, Error>)
    ensures r.Success? ==> r.value.Keys == IdSet(ws)
    ensures r.Failure? <==>
              |ws| > 0 && exists i :: 0 <= i < |edges| && !ValidEdge(edges[i], WorkerIds(ws))
    ensures r.Failure? ==> Some(r.error) == FirstEdgeError(edges, WorkerIds(ws))
  {
    var ids := WorkerIds(ws);
    if |ids| == 0 then Success(map[])
    else
      match FirstEdgeError(edges, ids)
      case Some(e) => Failure(e)
      case None => Success(map id | id in ids :: Adjacent(id, edges))
  }

  /** Number of edges joining `a` and `b`, in either orientation. */
  function EdgeCount(edges: seq<Edge>, a: nat, b: nat): nat
    requires WellFormed(edges)
  {
    if |edges| == 0 then 0
    else
      var e := edges[0];
      (if (e[0] == a && e[1] == b) || (e[0] == b && e[1] == a) then 1 else 0)
        + EdgeCount(edges[1..], a, b)
  }

  /** `b` occurs in `a`'s adjacency list once per edge between them. */
  lemma {:induction false} AdjacentMultiplicity(edges: seq<Edge>, a: nat, b: nat)
    requires WellFormed(edges)
    ensures multiset(Adjacent(a, edges))[b] == EdgeCount(edges, a, b)
  {
    if |edges| > 0 {
      AdjacentMultiplicity(edges[1..], a, b);
    }
  }

  lemma {:induction false} EdgeCountSymmetric(edges: seq<Edge>, a: nat, b: nat)
    requires WellFormed(edges)
    ensures EdgeCount(edges, a, b) == EdgeCount(edges, b, a)
  {
    if |edges| > 0 {
      EdgeCountSymmetric(edges[1..], a, b);
    }
  }

  lemma ValidEdgesWellFormed(edges: seq<Edge>, ids: seq<nat>)
    requires forall i :: 0 <= i < |edges| ==> ValidEdge(edges[i], ids)
    ensures WellFormed(edges)
  {
  }

  /** A successful build maps every worker to exactly its incident edges:
      `b` occurs in `graph[a]` as many times as there are edges {a, b}. */
  lemma GraphMultiplicity(edges: seq<Edge>, ws: seq<Worker>, a: nat, b: nat)
    requires BuildNeighborGraph(edges, ws).Success?
    requires a in IdSet(ws)
    ensures WellFormed(edges)
    ensures multiset(BuildNeighborGraph(edges, ws).value[a])[b] == EdgeCount(edges, a, b)
  {
    var ids := WorkerIds(ws);
    assert a in ids;
    ValidEdgesWellFormed(edges, ids);
    AdjacentMultiplicity(edges, a, b);
  }

  /** The built graph is symmetric, counting duplicate edges. */
  lemma GraphSymmetric(edges: seq<Edge>, ws: seq<Worker>, a: nat, b: nat)
    requires BuildNeighborGraph(edges, ws).Success?
    requires a in IdSet(ws) && b in IdSet(ws)
    ensures multiset(BuildNeighborGraph(edges, ws).value[a])[b]
         == multiset(BuildNeighborGraph(edges, ws).value[b])[a]
    ensures b in BuildNeighborGraph(edges, ws).value[a] <==> a in BuildNeighborGraph(edges, ws).value[b]
  {
    GraphMultiplicity(edges, ws, a, b);
    GraphMultiplicity(edges, ws, b, a);
    EdgeCountSymmetric(edges, a, b);
  }

  /** Every neighbour of a worker in the built graph is itself a worker. */
  lemma GraphClosed(edges: seq<Edge>, ws: seq<Worker>, a: nat)
    requires BuildNeighborGraph(edges, ws).Success?
    requires a in IdSet(ws)
    ensures forall b :: b in BuildNeighborGraph(edges, ws).value[a] ==> b in IdSet(ws)
  {
    var ids := WorkerIds(ws);
    ValidEdgesWellFormed(edges, ids);
    AdjacentWithin(edges, ids, a);
  }

  lemma {:induction false} AdjacentWithin(edges: seq<Edge>, ids: seq<nat>, a: nat)
    requires forall i :: 0 <= i < |edges| ==> ValidEdge(edges[i], ids)
    ensures WellFormed(edges)
    ensures forall b :: b in Adjacent(a, edges) ==> b in ids
  {
    if |edges| > 0 {
      AdjacentWithin(edges[1..], ids, a);
    }
  }

  /** No edge mentions `a` among its two endpoints. */
  predicate Isolated(edges: seq<Edge>, a: nat)
    requires WellFormed(edges)
  {
    forall i :: 0 <= i < |edges| ==> edges[i][0] != a && edges[i][1] != a
  }

  /** A worker mentioned by no edge still gets an entry, and it is empty. */
  lemma IsolatedWorkerHasNoNeighbors(edges: seq<Edge>, ws: seq<Worker>, a: nat)
    requires BuildNeighborGraph(edges, ws).Success?
    requires a in IdSet(ws)
    requires WellFormed(edges) && Isolated(edges, a)
    ensures BuildNeighborGraph(edges, ws).value[a] == []
  {
    AdjacentOfIsolated(edges, a);
  }

  lemma {:induction false} AdjacentOfIsolated(edges: seq<Edge>, a: nat)
    requires WellFormed(edges) && Isolated(edges, a)
    ensures Adjacent(a, edges) == []
  {
    if |edges| > 0 {
      AdjacentOfIsolated(edges[1..], a);
    }
  }

  /** The adjacency list of a concatenated edge list is the lists of the
      two parts, one after the other. */
  lemma {:induction false} AdjacentAppend(id: nat, e1: seq<Edge>, e2: seq<Edge>)
    requires WellFormed(e1) && WellFormed(e2)
    ensures WellFormed(e1 + e2)
    ensures Adjacent(id, e1 + e2) == Adjacent(id, e1) + Adjacent(id, e2)
  {
    if |e1| == 0 {
      assert e1 + e2 == e2;
    } else {
      assert (e1 + e2)[1..] == e1[1..] + e2;
      AdjacentAppend(id, e1[1..], e2);
    }
  }

  /** A built graph holds, for every worker, its adjacency list over the
      whole edge list. */
  lemma GraphIsAdjacent(edges: seq<Edge>, ws: seq<Worker>, a: nat)
    requires BuildNeighborGraph(edges, ws).Success?
    requires a in IdSet(ws)
    ensures WellFormed(edges)
    ensures BuildNeighborGraph(edges, ws).value[a] == Adjacent(a, edges)
  {
    var ids := WorkerIds(ws);
    assert a in ids;
    ValidEdgesWellFormed(edges, ids);
  }

  /** One edge gives each endpoint the other endpoint, and a self-loop
      gives its worker itself once. */
  lemma GraphOneEdge(e: Edge, ws: seq<Worker>, a: nat)
    requires BuildNeighborGraph([e], ws).Success?
    requires a in IdSet(ws)
    ensures |e| >= 2
    ensures BuildNeighborGraph([e], ws).value[a] ==
              if a == e[0] then [e[1]] else if a == e[1] then [e[0]] else []
  {
    GraphIsAdjacent([e], ws, a);
    assert [e][1..] == [];
  }

  /** Neighbour lists follow edge-list order: the graph of a concatenated
      edge list gives each worker the neighbours from the first part, then
      those from the second. */
  lemma GraphAppend(e1: seq<Edge>, e2: seq<Edge>, ws: seq<Worker>, a: nat)
    requires BuildNeighborGraph(e1 + e2, ws).Success?
    requires a in IdSet(ws)
    ensures BuildNeighborGraph(e1, ws).Success? && BuildNeighborGraph(e2, ws).Success?
    ensures BuildNeighborGraph(e1 + e2, ws).value[a] ==
              BuildNeighborGraph(e1, ws).value[a] + BuildNeighborGraph(e2, ws).value[a]
  {
    var ids := WorkerIds(ws);
    assert a in ids;
    assert forall i :: 0 <= i < |e1| ==> e1[i] == (e1 + e2)[i];
    assert forall i :: 0 <= i < |e2| ==> e2[i] == (e1 + e2)[|e1| + i];
    GraphIsAdjacent(e1 + e2, ws, a);
    GraphIsAdjacent(e1, ws, a);
    GraphIsAdjacent(e2, ws, a);
    AdjacentAppend(a, e1, e2);
  }
}

=== FILE: models.dfy ===
/** The records one tick of the simulation is made of, and the two-variant
    action a worker may be told to take. Ids are unbounded naturals standing
    for the source's `u32`. */
module Models {

  /** One removable layer of a pearl. */
  datatype Layer = Layer(color: string, thickness: nat)

  /** A pearl is finished once it has no layers left. */
  datatype Pearl = Pearl(id: nat, layers: seq<Layer>) {
    predicate Finished() {
      |layers| == 0
    }
  }

  /** A worker (nautiloid); id 0 is the gatekeeper. */
  datatype Worker = Worker(id: nat, flavor: string, desk: seq<Pearl>)

  /** An undirected edge as it arrives on the wire: a list whose first two
      entries are the endpoints. */
  type Edge = seq<nat>

  /** One decoded snapshot; `score` is carried along but never consulted. */
  datatype State = State(workers: seq<Worker>, neighborMap: seq<Edge>, score: nat)

  /** What a worker is told to do this tick. `Pass` and `Nom` are also what
      the helpers `make_pass` and `make_nom` build. */
  datatype Action =
    | Pass(fromId: nat, pearlId: nat, toId: nat)
    | Nom(nautiloidId: nat, pearlId: nat)

  const GatekeeperId: nat := 0

  /** The worker ids in state order. */
  function Ids(ws: seq<Worker>): (ids: seq<nat>)
    ensures |ids| == |ws|
    ensures forall i :: 0 <= i < |ws| ==> ids[i] == ws[i].id
  {
    if |ws| == 0 then [] else Ids(ws[..|ws| - 1]) + [ws[|ws| - 1].id]
  }

  /** The set of ids of the workers in `ws`. */
  function IdSet(ws: seq<Worker>): set<nat>
  {
    set i | 0 <= i < |ws| :: ws[i].id
  }

  lemma IdSetSnoc(ws: seq<Worker>)
    requires |ws| > 0
    ensures IdSet(ws) == IdSet(ws[..|ws| - 1]) + {ws[|ws| - 1].id}
  {
    var init := ws[..|ws| - 1];
    assert forall i :: 0 <= i < |init| ==> init[i] == ws[i];
    forall x | x in IdSet(ws)
      ensures x in IdSet(init) + {ws[|ws| - 1].id}
    {
      var i :| 0 <= i < |ws| && ws[i].id == x;
      if i < |init| {
        assert init[i].id == x;
      }
    }
  }

  lemma IdSetCons(ws: seq<Worker>)
    requires |ws| > 0
    ensures IdSet(ws) == {ws[0].id} + IdSet(ws[1..])
  {
    var tail := ws[1..];
    assert forall i :: 0 <= i < |tail| ==> tail[i] == ws[i + 1];
    forall x | x in IdSet(ws)
      ensures x in {ws[0].id} + IdSet(tail)
    {
      var i :| 0 <= i < |ws| && ws[i].id == x;
      if i > 0 {
        assert tail[i - 1].id == x;
      }
    }
  }

  predicate DistinctIds(ws: seq<Worker>)
  {
    forall i, j :: 0 <= i < j < |ws| ==> ws[i].id != ws[j].id
  }
}

=== FILE: pipeline.dfy ===
/** The per-line loop: each state builds its neighbour graph, the actions
    are decided against it, and the path memory is carried from one state
    to the next. Reading and parsing the input lines, and printing, are
    outside the model; the encoding of each action map is `Encoder`. */
module Pipeline {
  import opened Wrappers
  import opened Errors
  import opened Models
  import opened NeighborGraph
  import opened Decide

  /** A graph built from a state's edges fits that state's workers. */
  lemma BuiltGraphFor(edges: seq<Edge>, ws: seq<Worker>)
    requires BuildNeighborGraph(edges, ws).Success?
    ensures GraphFor(BuildNeighborGraph(edges, ws).value, ws)
  {
    forall a | a in IdSet(ws)
      ensures forall b :: b in BuildNeighborGraph(edges, ws).value[a] ==> b in IdSet(ws)
    {
      GraphClosed(edges, ws, a);
    }
  }

  /** The errors building the graph can raise. */
  predicate GraphError(e: Error)
  {
    e.UnknownWorker? || e.MalformedEdge?
  }

  /** One input line: build the graph, then decide. The first bad edge
      fails the tick before any action is decided; after that only table
      lookups, broken paths and a gatekeeper with nothing to nom can fail
      it. */
  function ProcessTick(st: State, m: Abilities.AbilityMap, paths: Paths): (r: Result<TickResult, Error>)
    requires DistinctIds(st.workers)
    ensures r.Success? ==> r.value.actions.Keys == BusyIds(st.workers)
    ensures r.Success? ==> ActionsFit(st.workers, r.value.actions)
    ensures BuildNeighborGraph(st.neighborMap, st.workers).Failure? ==>
              r.Failure? && GraphError(r.error)
              && Some(r.error) == FirstEdgeError(st.neighborMap, WorkerIds(st.workers))
    ensures BuildNeighborGraph(st.neighborMap, st.workers).Success? && r.Failure? ==>
              TickError(r.error) && (r.error.NothingToNom? ==> r.error.workerId == GatekeeperId)
  {
    var g :- BuildNeighborGraph(st.neighborMap, st.workers);
    BuiltGraphFor(st.neighborMap, st.workers);
    DetermineActions(st, m, g, paths)
  }

  predicate AllDistinct(states: seq<State>)
  {
    forall i :: 0 <= i < |states| ==> DistinctIds(states[i].workers)
  }

  /** The loop over all lines: one action map per state, and the path
      memory after the last one. The first failing state stops the run. */
  function Run(states: seq<State>, m: Abilities.AbilityMap, paths: Paths)
    : (r: Result<(seq<map<nat, Action>>, Paths), Error>)
    requires AllDistinct(states)
    ensures r.Success? ==> |r.value.0| == |states|
    decreases |states|
  {
    if |states| == 0 then Success(([], paths))
    else
      var tick :- ProcessTick(states[0], m, paths);
      AllDistinctTail(states);
      var rest :- Run(states[1..], m, tick.paths);
      Success(([tick.actions] + rest.0, rest.1))
  }

  /** Every line of a successful run acts for exactly the workers of its
      state that hold pearls, with actions that fit them. */
  lemma {:induction false} RunActsForBusy(states: seq<State>, m: Abilities.AbilityMap, paths: Paths)
    requires AllDistinct(states)
    requires Run(states, m, paths).Success?
    ensures forall i :: 0 <= i < |states| ==>
              Run(states, m, paths).value.0[i].Keys == BusyIds(states[i].workers)
              && ActionsFit(states[i].workers, Run(states, m, paths).value.0[i])
  {
    if |states| > 0 {
      RunHead(states, m, paths);
      var tick := ProcessTick(states[0], m, paths).value;
      var out := Run(states, m, paths).value.0;
      var rest := Run(states[1..], m, tick.paths).value.0;
      RunActsForBusy(states[1..], m, tick.paths);
      forall i | 0 <= i < |states|
        ensures out[i].Keys == BusyIds(states[i].workers) && ActionsFit(states[i].workers, out[i])
      {
        if i > 0 {
          assert states[i] == states[1..][i - 1] && out[i] == rest[i - 1];
        }
      }
    }
  }

  /** A successful run starts with a successful first tick, and the rest of
      its output is the run of the remaining lines. */
  lemma RunHead(states: seq<State>, m: Abilities.AbilityMap, paths: Paths)
    requires |states| > 0 && AllDistinct(states)
    requires Run(states, m, paths).Success?
    ensures AllDistinct(states[1..])
    ensures ProcessTick(states[0], m, paths).Success?
    ensures Run(states[1..], m, ProcessTick(states[0], m, paths).value.paths).Success?
    ensures Run(states, m, paths).value.0 ==
              [ProcessTick(states[0], m, paths).value.actions]
              + Run(states[1..], m, ProcessTick(states[0], m, paths).value.paths).value.0
  {
    AllDistinctTail(states);
  }

  lemma AllDistinctTail(states: seq<State>)
    requires |states| > 0 && AllDistinct(states)
    ensures AllDistinct(states[1..])
  {
    assert forall i :: 1 <= i < |states| ==> states[i] == states[1..][i - 1];
  }

  lemma AllDistinctAppend(s1: seq<State>, s2: seq<State>)
    requires AllDistinct(s1) && AllDistinct(s2)
    ensures AllDistinct(s1 + s2)
  {
    forall i | 0 <= i < |s1 + s2|
      ensures DistinctIds((s1 + s2)[i].workers)
    {
      if i >= |s1| {
        assert (s1 + s2)[i] == s2[i - |s1|];
      }
    }
  }

  /** What running `s2` after a run that produced `first` amounts to. */
  function Continue(first: (seq<map<nat, Action>>, Paths), second: Result<(seq<map<nat, Action>>, Paths), Error>)
    : Result<(seq<map<nat, Action>>, Paths), Error>
  {
    match second
    case Success(v) => Success((first.0 + v.0, v.1))
    case Failure(e) => Failure(e)
  }

  /** Running two batches of lines one after the other is running their
      concatenation: the path memory is the only thing carried over. */
  lemma {:induction false} RunAppend(s1: seq<State>, s2: seq<State>, m: Abilities.AbilityMap, paths: Paths)
    requires AllDistinct(s1) && AllDistinct(s2)
    requires Run(s1, m, paths).Success?
    ensures AllDistinct(s1 + s2)
    ensures Run(s1 + s2, m, paths) == Continue(Run(s1, m, paths).value, Run(s2, m, Run(s1, m, paths).value.1))
    decreases |s1|, 1
  {
    AllDistinctAppend(s1, s2);
    if |s1| == 0 {
      assert s1 + s2 == s2;
      var second := Run(s2, m, paths);
      assert second.Success? ==> [] + second.value.0 == second.value.0;
    } else {
      RunAppendStep(s1, s2, m, paths);
    }
  }

  lemma ContinueNest(a: map<nat, Action>, v: (seq<map<nat, Action>>, Paths),
                     w: Result<(seq<map<nat, Action>>, Paths), Error>)
    ensures Continue(([a], map[]), Continue(v, w)) == Continue(([a] + v.0, v.1), w)
  {
    if w.Success? {
      assert [a] + (v.0 + w.value.0) == [a] + v.0 + w.value.0;
    }
  }

  lemma {:induction false} RunAppendStep(s1: seq<State>, s2: seq<State>, m: Abilities.AbilityMap, paths: Paths)
    requires AllDistinct(s1) && AllDistinct(s2) && |s1| > 0
    requires Run(s1, m, paths).Success?
    ensures AllDistinct(s1 + s2)
    ensures Run(s1 + s2, m, paths) == Continue(Run(s1, m, paths).value, Run(s2, m, Run(s1, m, paths).value.1))
    decreases |s1|, 0
  {
    AllDistinctAppend(s1, s2);
    var both := s1 + s2;
    assert both[0] == s1[0] && both[1..] == s1[1..] + s2;
    var tick := ProcessTick(s1[0], m, paths);
    assert tick.Success?;
    var r1 := Run(s1[1..], m, tick.value.paths);
    RunAppend(s1[1..], s2, m, tick.value.paths);
    ContinueNest(tick.value.actions, r1.value, Run(s2, m, r1.value.1));
  }
}

=== FILE: routing.dfy ===
/** The per-worker routing heuristic: desk sizes, idle neighbours, the
    offload scan (the last qualifying pair wins) and the nom choice (the
    first strictly fastest unfinished pearl). */
module Routing {
  import opened Wrappers
  import opened Errors
  import opened Models
  import opened Abilities
  import opened Timing
  import opened NeighborGraph

  /** Worker id -> number of pearls on that worker's desk. */
  type Counts = map<nat, nat>

  /** An offload decision: give pearl `pearlId` to worker `workerId`. */
  datatype Target = Target(workerId: nat, pearlId: nat)

  /** `get_worker_pearl_counts`: one entry per worker id; when an id occurs
      twice the later worker's desk size overwrites the earlier one. */
  function PearlCounts(ws: seq<Worker>): (m: Counts)
    ensures m.Keys == IdSet(ws)
    ensures forall i :: 0 <= i < |ws| && LastWithId(ws, i) ==> m[ws[i].id] == |ws[i].desk|
  {
    if |ws| == 0 then map[]
    else
      var prev := PearlCounts(ws[..|ws| - 1]);
      PearlCountsSnoc(ws, ws[..|ws| - 1], prev);
      prev[ws[|ws| - 1].id := |ws[|ws| - 1].desk|]
  }

  lemma PearlCountsSnoc(ws: seq<Worker>, init: seq<Worker>, prev: Counts)
    requires |ws| > 0 && init == ws[..|ws| - 1]
    requires prev.Keys == IdSet(init)
    requires forall i :: 0 <= i < |init| && LastWithId(init, i) ==> prev[init[i].id] == |init[i].desk|
    ensures var m := prev[ws[|ws| - 1].id := |ws[|ws| - 1].desk|];
            && m.Keys == IdSet(ws)
            && forall i :: 0 <= i < |ws| && LastWithId(ws, i) ==> m[ws[i].id] == |ws[i].desk|
  {
    var last := ws[|ws| - 1];
    var m := prev[last.id := |last.desk|];
    IdSetSnoc(ws);
    forall i | 0 <= i < |ws| && LastWithId(ws, i)
      ensures m[ws[i].id] == |ws[i].desk|
    {
      if i < |init| {
        assert init[i] == ws[i];
        assert ws[i].id != last.id;
        assert LastWithId(init, i);
      }
    }
  }

  /** No worker after position `i` shares its id. */
  predicate LastWithId(ws: seq<Worker>, i: nat)
    requires i < |ws|
  {
    forall k :: i < k < |ws| ==> ws[k].id != ws[i].id
  }

  /** With distinct ids every worker's entry is its own desk size. */
  lemma PearlCountsDistinct(ws: seq<Worker>)
    requires DistinctIds(ws)
    ensures forall i :: 0 <= i < |ws| ==> PearlCounts(ws)[ws[i].id] == |ws[i].desk|
  {
    assert forall i :: 0 <= i < |ws| ==> LastWithId(ws, i);
  }

  /** `a` keeps some of the elements of `b`, in order. */
  ghost predicate Subsequence(a: seq<nat>, b: seq<nat>)
    decreases |b|
  {
    if |a| == 0 then true
    else if |b| == 0 then false
    else (a[0] == b[0] && Subsequence(a[1..], b[1..])) || Subsequence(a, b[1..])
  }

  /** The `retain` in `get_empty_neighbors`: keeps the ids whose count is 0,
      and panics on the first id with no count at all. */
  function RetainIdle(ns: seq<nat>, counts: Counts): (r: Result<seq<nat>, Error>)
    ensures r.Success? <==> forall i :: 0 <= i < |ns| ==> ns[i] in counts
    ensures r.Failure? ==>
              exists i :: 0 <= i < |ns| && ns[i] !in counts && r.error == MissingCount(ns[i])
    ensures r.Success? ==> forall x :: x in r.value ==> x in counts && counts[x] == 0
    ensures r.Success? ==> forall x :: x in counts && counts[x] == 0 ==>
              multiset(r.value)[x] == multiset(ns)[x]
    ensures r.Success? ==> Subsequence(r.value, ns)
  {
    if |ns| == 0 then Success([])
    else if ns[0] !in counts then Failure(MissingCount(ns[0]))
    else
      var rest :- RetainIdle(ns[1..], counts);
      assert ns == [ns[0]] + ns[1..];
      if counts[ns[0]] == 0 then
        assert ([ns[0]] + rest)[1..] == rest;
        Success([ns[0]] + rest)
      else
        assert Subsequence(rest, ns) by {
          if |rest| > 0 {
            assert ns[1..] == ns[1..];
          }
        }
        Success(rest)
  }

  /** `get_empty_neighbors`: the neighbours of `w` whose projected desk is
      empty, in adjacency order. */
  function EmptyNeighbors(w: Worker, counts: Counts, g: Graph): (r: Result<seq<nat>, Error>)
    ensures w.id !in g ==> r == Failure(MissingNeighborList(w.id))
    ensures r.Success? ==> w.id in g && forall x :: x in r.value ==> x in g[w.id] && x in counts && counts[x] == 0
    ensures r.Success? ==> forall x :: x in counts && counts[x] == 0 ==>
              multiset(r.value)[x] == multiset(g[w.id])[x]
    ensures r.Success? ==> Subsequence(r.value, g[w.id])
    ensures w.id in g ==> (r.Success? <==> forall i :: 0 <= i < |g[w.id]| ==> g[w.id][i] in counts)
    ensures r.Failure? ==> || (r.error == MissingNeighborList(w.id) && w.id !in g)
                           || (r.error.MissingCount? && w.id in g && r.error.workerId in g[w.id]
                               && r.error.workerId !in counts)
  {
    if w.id !in g then Failure(MissingNeighborList(w.id))
    else
      var r := RetainIdle(g[w.id], counts);
      if r.Success? then
        assert forall x :: x in r.value ==> x in g[w.id] by {
          forall x | x in r.value
            ensures x in g[w.id]
          {
            assert multiset(r.value)[x] > 0;
          }
        }
        r
      else r
  }

  /** The first worker of the state with id `id` (`nbr[0]` after `retain`). */
  function FindWorker(ws: seq<Worker>, id: nat): (r: Option<Worker>)
    ensures r.Some? <==> id in IdSet(ws)
    ensures r.Some? ==> exists i :: 0 <= i < |ws| && ws[i] == r.value && ws[i].id == id
                                    && forall k :: 0 <= k < i ==> ws[k].id != id
  {
    if |ws| == 0 then None
    else if ws[0].id == id then Some(ws[0])
    else
      assert IdSet(ws) == {ws[0].id} + IdSet(ws[1..]) by {
        assert forall i :: 0 < i < |ws| ==> ws[i] == ws[1..][i - 1];
      }
      var r := FindWorker(ws[1..], id);
      if r.Some? then
        var i :| 0 <= i < |ws[1..]| && ws[1..][i] == r.value && ws[1..][i].id == id
                 && forall k :: 0 <= k < i ==> ws[1..][k].id != id;
        assert ws[i + 1] == r.value;
        r
      else r
  }

  /** The offload rule: the neighbour is strictly faster, or as fast while
      the worker holds more than one pearl. */
  predicate Qualifies(own: nat, theirs: nat, deskSize: nat)
  {
    theirs < own || (theirs == own && deskSize > 1)
  }

  /** Every lookup the scan makes for the pair (`n`, `p`) succeeds. */
  ghost predicate PairOk(ws: seq<Worker>, w: Worker, n: nat, p: Pearl, m: AbilityMap)
  {
    && TimeToProcess(p, w, m).Success?
    && FindWorker(ws, n).Some?
    && TimeToProcess(p, FindWorker(ws, n).value, m).Success?
  }

  /** Offloading `p` to `n` qualifies. */
  ghost predicate PairQualifies(ws: seq<Worker>, w: Worker, n: nat, p: Pearl, m: AbilityMap)
  {
    && PairOk(ws, w, n, p, m)
    && Qualifies(TimeToProcess(p, w, m).value,
                 TimeToProcess(p, FindWorker(ws, n).value, m).value, |w.desk|)
  }

  /** The inner loop of `get_best_neighbor`: one idle neighbour `n` against
      the desk pearls, every qualifying pair overwriting `best`. */
  function ScanDesk(ws: seq<Worker>, w: Worker, n: nat, pearls: seq<Pearl>, m: AbilityMap,
                    best: Option<Target>): (r: Result<Option<Target>, Error>)
    ensures r.Success? <==> forall j :: 0 <= j < |pearls| ==> PairOk(ws, w, n, pearls[j], m)
    ensures r.Failure? ==> IsLookupError(r.error) || (r.error == MissingWorker(n) && n !in IdSet(ws))
  {
    if |pearls| == 0 then Success(best)
    else
      var own :- TimeToProcess(pearls[0], w, m);
      var nbr :- if FindWorker(ws, n).Some? then Success(FindWorker(ws, n).value)
                 else Failure(MissingWorker(n));
      var theirs :- TimeToProcess(pearls[0], nbr, m);
      var best' := if Qualifies(own, theirs, |w.desk|) then Some(Target(n, pearls[0].id)) else best;
      assert forall j :: 0 < j < |pearls| ==> pearls[j] == pearls[1..][j - 1];
      ScanDesk(ws, w, n, pearls[1..], m, best')
  }

  /** The inner scan ends on the last qualifying pearl, or keeps `best`
      when none qualifies. */
  lemma {:induction false} ScanDeskLast(ws: seq<Worker>, w: Worker, n: nat, pearls: seq<Pearl>, m: AbilityMap,
                                        best: Option<Target>)
    requires ScanDesk(ws, w, n, pearls, m, best).Success?
    ensures var r := ScanDesk(ws, w, n, pearls, m, best).value;
            && ((forall j :: 0 <= j < |pearls| ==> !PairQualifies(ws, w, n, pearls[j], m)) ==> r == best)
            && ((exists j :: 0 <= j < |pearls| && PairQualifies(ws, w, n, pearls[j], m)) ==>
                  exists j :: 0 <= j < |pearls| && PairQualifies(ws, w, n, pearls[j], m)
                              && r == Some(Target(n, pearls[j].id))
                              && forall k :: j < k < |pearls| ==> !PairQualifies(ws, w, n, pearls[k], m))
  {
    if |pearls| > 0 {
      var own := TimeToProcess(pearls[0], w, m).value;
      var theirs := TimeToProcess(pearls[0], FindWorker(ws, n).value, m).value;
      var best' := if Qualifies(own, theirs, |w.desk|) then Some(Target(n, pearls[0].id)) else best;
      var tail := pearls[1..];
      assert forall j :: 0 < j < |pearls| ==> pearls[j] == tail[j - 1];
      ScanDeskLast(ws, w, n, tail, m, best');
      var r := ScanDesk(ws, w, n, pearls, m, best).value;
      assert r == ScanDesk(ws, w, n, tail, m, best').value;
      if exists j :: 0 <= j < |tail| && PairQualifies(ws, w, n, tail[j], m) {
        var j :| 0 <= j < |tail| && PairQualifies(ws, w, n, tail[j], m)
                 && r == Some(Target(n, tail[j].id))
                 && forall k :: j < k < |tail| ==> !PairQualifies(ws, w, n, tail[k], m);
        assert PairQualifies(ws, w, n, pearls[j + 1], m);
        assert forall k :: j + 1 < k < |pearls| ==> !PairQualifies(ws, w, n, pearls[k], m);
      } else {
        assert forall k :: 0 < k < |pearls| ==> !PairQualifies(ws, w, n, pearls[k], m);
      }
    }
  }

  /** Pair (i', j') comes after pair (i, j) in neighbour-major order. */
  predicate Later(i': nat, j': nat, i: nat, j: nat)
  {
    i' > i || (i' == i && j' > j)
  }

  /** The outer loop of `get_best_neighbor` over the idle neighbours. */
  function ScanNeighbors(ws: seq<Worker>, w: Worker, nbrs: seq<nat>, m: AbilityMap,
                         best: Option<Target>): (r: Result<Option<Target>, Error>)
    ensures r.Success? <==>
              forall i, j :: 0 <= i < |nbrs| && 0 <= j < |w.desk| ==> PairOk(ws, w, nbrs[i], w.desk[j], m)
    ensures r.Failure? ==> IsLookupError(r.error)
                           || (r.error.MissingWorker? && r.error.workerId in nbrs && r.error.workerId !in IdSet(ws))
  {
    if |nbrs| == 0 then Success(best)
    else
      var b :- ScanDesk(ws, w, nbrs[0], w.desk, m, best);
      assert forall i :: 0 < i < |nbrs| ==> nbrs[i] == nbrs[1..][i - 1];
      ScanNeighbors(ws, w, nbrs[1..], m, b)
  }

  /** Every lookup the scan makes over `nbrs` and the desk succeeds. */
  ghost predicate PairsOk(ws: seq<Worker>, w: Worker, nbrs: seq<nat>, m: AbilityMap)
  {
    forall i, j :: 0 <= i < |nbrs| && 0 <= j < |w.desk| ==> PairOk(ws, w, nbrs[i], w.desk[j], m)
  }

  /** Some pair (neighbour in `nbrs`, desk pearl) qualifies. */
  ghost predicate AnyQualifies(ws: seq<Worker>, w: Worker, nbrs: seq<nat>, m: AbilityMap)
  {
    exists i, j :: 0 <= i < |nbrs| && 0 <= j < |w.desk| && PairQualifies(ws, w, nbrs[i], w.desk[j], m)
  }

  /** Pair (i, j) qualifies and no later pair does. */
  ghost predicate LastQualifying(ws: seq<Worker>, w: Worker, nbrs: seq<nat>, m: AbilityMap, i: nat, j: nat)
  {
    && i < |nbrs| && j < |w.desk|
    && PairQualifies(ws, w, nbrs[i], w.desk[j], m)
    && forall i', j' :: 0 <= i' < |nbrs| && 0 <= j' < |w.desk| && Later(i', j', i, j) ==>
                        !PairQualifies(ws, w, nbrs[i'], w.desk[j'], m)
  }

  lemma LastQualifyingShift(ws: seq<Worker>, w: Worker, nbrs: seq<nat>, m: AbilityMap, i: nat, j: nat)
    requires |nbrs| > 0
    requires LastQualifying(ws, w, nbrs[1..], m, i, j)
    ensures LastQualifying(ws, w, nbrs, m, i + 1, j)
  {
    var tail := nbrs[1..];
    forall i', j' | 0 <= i' < |nbrs| && 0 <= j' < |w.desk| && Later(i', j', i + 1, j)
      ensures !PairQualifies(ws, w, nbrs[i'], w.desk[j'], m)
    {
      assert nbrs[i'] == tail[i' - 1];
      assert Later(i' - 1, j', i, j);
    }
  }

  /** The outer scan ends on the last qualifying pair in neighbour-major
      order, or keeps `best` when none qualifies. */
  lemma {:induction false} ScanNeighborsLast(ws: seq<Worker>, w: Worker, nbrs: seq<nat>, m: AbilityMap,
                                             best: Option<Target>)
    requires ScanNeighbors(ws, w, nbrs, m, best).Success?
    ensures var r := ScanNeighbors(ws, w, nbrs, m, best).value;
            && (!AnyQualifies(ws, w, nbrs, m) ==> r == best)
            && (AnyQualifies(ws, w, nbrs, m) ==>
                  exists i: nat, j: nat :: LastQualifying(ws, w, nbrs, m, i, j) && r == Some(Target(nbrs[i], w.desk[j].id)))
  {
    if |nbrs| > 0 {
      var b := ScanDesk(ws, w, nbrs[0], w.desk, m, best).value;
      var tail := nbrs[1..];
      assert forall i :: 0 < i < |nbrs| ==> nbrs[i] == tail[i - 1];
      ScanDeskLast(ws, w, nbrs[0], w.desk, m, best);
      ScanNeighborsLast(ws, w, tail, m, b);
      var r := ScanNeighbors(ws, w, nbrs, m, best).value;
      assert r == ScanNeighbors(ws, w, tail, m, b).value;
      if AnyQualifies(ws, w, tail, m) {
        var i: nat, j: nat :| LastQualifying(ws, w, tail, m, i, j) && r == Some(Target(tail[i], w.desk[j].id));
        LastQualifyingShift(ws, w, nbrs, m, i, j);
      } else if exists j :: 0 <= j < |w.desk| && PairQualifies(ws, w, nbrs[0], w.desk[j], m) {
        var j :| 0 <= j < |w.desk| && PairQualifies(ws, w, nbrs[0], w.desk[j], m)
                 && b == Some(Target(nbrs[0], w.desk[j].id))
                 && forall k :: j < k < |w.desk| ==> !PairQualifies(ws, w, nbrs[0], w.desk[k], m);
        LastQualifyingHead(ws, w, nbrs, m, j);
      } else {
        NoneQualifies(ws, w, nbrs, m);
      }
    }
  }

  lemma LastQualifyingHead(ws: seq<Worker>, w: Worker, nbrs: seq<nat>, m: AbilityMap, j: nat)
    requires |nbrs| > 0 && j < |w.desk|
    requires PairQualifies(ws, w, nbrs[0], w.desk[j], m)
    requires forall k :: j < k < |w.desk| ==> !PairQualifies(ws, w, nbrs[0], w.desk[k], m)
    requires !AnyQualifies(ws, w, nbrs[1..], m)
    ensures LastQualifying(ws, w, nbrs, m, 0, j)
  {
    var tail := nbrs[1..];
    forall i', j' | 0 <= i' < |nbrs| && 0 <= j' < |w.desk| && Later(i', j', 0, j)
      ensures !PairQualifies(ws, w, nbrs[i'], w.desk[j'], m)
    {
      if i' > 0 {
        assert nbrs[i'] == tail[i' - 1];
      }
    }
  }

  lemma NoneQualifies(ws: seq<Worker>, w: Worker, nbrs: seq<nat>, m: AbilityMap)
    requires |nbrs| > 0
    requires forall j :: 0 <= j < |w.desk| ==> !PairQualifies(ws, w, nbrs[0], w.desk[j], m)
    requires !AnyQualifies(ws, w, nbrs[1..], m)
    ensures !AnyQualifies(ws, w, nbrs, m)
  {
    var tail := nbrs[1..];
    forall i, j | 0 <= i < |nbrs| && 0 <= j < |w.desk|
      ensures !PairQualifies(ws, w, nbrs[i], w.desk[j], m)
    {
      if i > 0 {
        assert nbrs[i] == tail[i - 1];
      }
    }
  }

  /** `get_best_neighbor`: over (idle neighbour, desk pearl) pairs in
      neighbour-major order, the LAST pair that qualifies, or `None`. The
      target is always an idle neighbour and the pearl is on the desk. */
  function BestNeighbor(ws: seq<Worker>, w: Worker, counts: Counts, m: AbilityMap, g: Graph)
    : (r: Result<Option<Target>, Error>)
    ensures r.Success? ==> EmptyNeighbors(w, counts, g).Success?
    ensures EmptyNeighbors(w, counts, g).Failure? ==> r == Failure(EmptyNeighbors(w, counts, g).error)
    ensures EmptyNeighbors(w, counts, g).Success? ==>
              (r.Success? <==> PairsOk(ws, w, EmptyNeighbors(w, counts, g).value, m))
    ensures r.Success? && r.value.Some? ==>
              && w.id in g && r.value.value.workerId in g[w.id]
              && r.value.value.workerId in counts && counts[r.value.value.workerId] == 0
              && exists j :: 0 <= j < |w.desk| && w.desk[j].id == r.value.value.pearlId
    ensures r.Failure? ==> || IsLookupError(r.error)
                           || (r.error == MissingNeighborList(w.id) && w.id !in g)
                           || (r.error.MissingCount? && w.id in g && r.error.workerId in g[w.id]
                               && r.error.workerId !in counts)
                           || (r.error.MissingWorker? && w.id in g && r.error.workerId in g[w.id]
                               && r.error.workerId !in IdSet(ws))
  {
    var empties :- EmptyNeighbors(w, counts, g);
    var r := ScanNeighbors(ws, w, empties, m, None);
    if r.Success? then
      ScanNeighborsLast(ws, w, empties, m, None);
      r
    else r
  }

  /** The offload choice is exactly the last qualifying (idle neighbour,
      pearl) pair, and `None` exactly when no pair qualifies. */
  lemma BestNeighborIsLastQualifying(ws: seq<Worker>, w: Worker, counts: Counts, m: AbilityMap, g: Graph)
    requires BestNeighbor(ws, w, counts, m, g).Success?
    ensures var nbrs := EmptyNeighbors(w, counts, g).value;
            var r := BestNeighbor(ws, w, counts, m, g).value;
            && (r.None? <==> !AnyQualifies(ws, w, nbrs, m))
            && (r.Some? ==> exists i: nat, j: nat :: LastQualifying(ws, w, nbrs, m, i, j)
                                           && r == Some(Target(nbrs[i], w.desk[j].id)))
  {
    ScanNeighborsLast(ws, w, EmptyNeighbors(w, counts, g).value, m, None);
  }

  /** A pearl the nom scan can time: finished pearls are skipped. */
  ghost predicate NomOk(p: Pearl, w: Worker, m: AbilityMap)
  {
    p.Finished() || TimeToProcess(p, w, m).Success?
  }

  /** The loop of `get_best_pearl_to_nom` over the unfinished pearls: the
      running choice (pearl id, time) is replaced only by a strictly
      smaller time. */
  function NomScan(w: Worker, pearls: seq<Pearl>, m: AbilityMap, best: Option<(nat, nat)>)
    : (r: Result<Option<(nat, nat)>, Error>)
    ensures r.Success? <==> forall j :: 0 <= j < |pearls| ==> NomOk(pearls[j], w, m)
    ensures r.Failure? ==> IsLookupError(r.error)
  {
    if |pearls| == 0 then Success(best)
    else
      assert forall j :: 0 < j < |pearls| ==> pearls[j] == pearls[1..][j - 1];
      if pearls[0].Finished() then
        NomScan(w, pearls[1..], m, best)
      else
        var t :- TimeToProcess(pearls[0], w, m);
        var best' := if best.None? || t < best.value.1 then Some((pearls[0].id, t)) else best;
        NomScan(w, pearls[1..], m, best')
  }

  /** The time of an unfinished pearl whose lookups succeed. */
  ghost function Time(p: Pearl, w: Worker, m: AbilityMap): nat
    requires TimeToProcess(p, w, m).Success?
  {
    TimeToProcess(p, w, m).value
  }

  /** Every pearl the nom scan times can be timed. */
  ghost predicate AllNomOk(w: Worker, pearls: seq<Pearl>, m: AbilityMap)
  {
    forall j :: 0 <= j < |pearls| ==> NomOk(pearls[j], w, m)
  }

  /** Pearl `j` is unfinished, no unfinished pearl is faster, and every
      unfinished pearl before it is strictly slower. */
  ghost predicate FirstMinimal(w: Worker, pearls: seq<Pearl>, m: AbilityMap, j: nat)
    requires AllNomOk(w, pearls, m)
  {
    && j < |pearls| && !pearls[j].Finished()
    && (forall k :: 0 <= k < |pearls| && !pearls[k].Finished() ==>
          Time(pearls[j], w, m) <= Time(pearls[k], w, m))
    && (forall k :: 0 <= k < j && !pearls[k].Finished() ==>
          Time(pearls[j], w, m) < Time(pearls[k], w, m))
  }

  /** Some unfinished pearl beats the running choice `best`. */
  ghost predicate Beats(w: Worker, pearls: seq<Pearl>, m: AbilityMap, best: Option<(nat, nat)>)
    requires AllNomOk(w, pearls, m)
  {
    exists k :: 0 <= k < |pearls| && !pearls[k].Finished() && (best.None? || Time(pearls[k], w, m) < best.value.1)
  }

  /** The nom scan ends on the first strictly fastest unfinished pearl,
      unless none beats the running choice, which is then kept. */
  lemma {:induction false} NomScanFirstMinimal(w: Worker, pearls: seq<Pearl>, m: AbilityMap, best: Option<(nat, nat)>)
    requires AllNomOk(w, pearls, m)
    ensures NomScan(w, pearls, m, best).Success?
    ensures var r := NomScan(w, pearls, m, best).value;
            && (!Beats(w, pearls, m, best) ==> r == best)
            && (Beats(w, pearls, m, best) ==>
                  exists j: nat :: FirstMinimal(w, pearls, m, j)
                                   && r == Some((pearls[j].id, Time(pearls[j], w, m)))
                                   && (best.Some? ==> Time(pearls[j], w, m) < best.value.1))
  {
    if |pearls| > 0 {
      var tail := pearls[1..];
      AllNomOkTail(w, pearls, m);
      var r := NomScan(w, pearls, m, best).value;
      var best' := if pearls[0].Finished() || !(best.None? || Time(pearls[0], w, m) < best.value.1) then best
                   else Some((pearls[0].id, Time(pearls[0], w, m)));
      NomScanFirstMinimal(w, tail, m, best');
      assert r == NomScan(w, tail, m, best').value;
      if Beats(w, tail, m, best') {
        var j: nat :| FirstMinimal(w, tail, m, j) && r == Some((tail[j].id, Time(tail[j], w, m)))
                      && (best'.Some? ==> Time(tail[j], w, m) < best'.value.1);
        FirstMinimalShift(w, pearls, m, j);
        BeatsCons(w, pearls, m, best);
      } else if best' != best {
        HeadFirstMinimal(w, pearls, m);
        BeatsCons(w, pearls, m, best);
      } else {
        BeatsCons(w, pearls, m, best);
      }
    }
  }

  lemma AllNomOkTail(w: Worker, pearls: seq<Pearl>, m: AbilityMap)
    requires |pearls| > 0 && AllNomOk(w, pearls, m)
    ensures AllNomOk(w, pearls[1..], m)
  {
    assert forall j :: 0 <= j < |pearls| - 1 ==> pearls[1..][j] == pearls[j + 1];
  }

  /** Beating `best` over the whole list is beating it with the head or
      over the tail. */
  lemma BeatsCons(w: Worker, pearls: seq<Pearl>, m: AbilityMap, best: Option<(nat, nat)>)
    requires |pearls| > 0 && AllNomOk(w, pearls, m)
    ensures AllNomOk(w, pearls[1..], m)
    ensures Beats(w, pearls, m, best) <==>
              (!pearls[0].Finished() && (best.None? || Time(pearls[0], w, m) < best.value.1))
              || Beats(w, pearls[1..], m, best)
  {
    var tail := pearls[1..];
    AllNomOkTail(w, pearls, m);
    if Beats(w, pearls, m, best) {
      var k :| 0 <= k < |pearls| && !pearls[k].Finished() && (best.None? || Time(pearls[k], w, m) < best.value.1);
      if k > 0 {
        assert tail[k - 1] == pearls[k];
      }
    }
    if Beats(w, tail, m, best) {
      var k :| 0 <= k < |tail| && !tail[k].Finished() && (best.None? || Time(tail[k], w, m) < best.value.1);
      assert tail[k] == pearls[k + 1];
    }
  }

  /** A first-minimal pearl of the tail stays first-minimal behind a head
      that is finished or strictly slower. */
  lemma FirstMinimalShift(w: Worker, pearls: seq<Pearl>, m: AbilityMap, j: nat)
    requires |pearls| > 0 && AllNomOk(w, pearls, m) && AllNomOk(w, pearls[1..], m)
    requires FirstMinimal(w, pearls[1..], m, j)
    requires pearls[0].Finished() || Time(pearls[1..][j], w, m) < Time(pearls[0], w, m)
    ensures FirstMinimal(w, pearls, m, j + 1)
  {
    var tail := pearls[1..];
    assert forall k :: 0 < k < |pearls| ==> pearls[k] == tail[k - 1];
  }

  /** An unfinished head no tail pearl beats is first-minimal. */
  lemma HeadFirstMinimal(w: Worker, pearls: seq<Pearl>, m: AbilityMap)
    requires |pearls| > 0 && AllNomOk(w, pearls, m) && AllNomOk(w, pearls[1..], m)
    requires !pearls[0].Finished()
    requires !Beats(w, pearls[1..], m, Some((pearls[0].id, Time(pearls[0], w, m))))
    ensures FirstMinimal(w, pearls, m, 0)
  {
    var tail := pearls[1..];
    forall k | 0 < k < |pearls| && !pearls[k].Finished()
      ensures Time(pearls[0], w, m) <= Time(pearls[k], w, m)
    {
      assert pearls[k] == tail[k - 1];
    }
  }

  /** `get_best_pearl_to_nom`: the id the nom scan settles on. */
  function BestPearlToNom(w: Worker, m: AbilityMap): (r: Result<Option<nat>, Error>)
    ensures r.Success? <==> AllNomOk(w, w.desk, m)
    ensures r.Failure? ==> IsLookupError(r.error)
  {
    var best :- NomScan(w, w.desk, m, None);
    if best.Some? then Success(Some(best.value.0)) else Success(None)
  }

  /** The nom choice is `None` exactly when every desk pearl is finished,
      and otherwise the first unfinished pearl of minimal time. */
  lemma BestPearlToNomIsFirstMinimal(w: Worker, m: AbilityMap)
    requires BestPearlToNom(w, m).Success?
    ensures var r := BestPearlToNom(w, m).value;
            && (r.None? <==> forall j :: 0 <= j < |w.desk| ==> w.desk[j].Finished())
            && (r.Some? ==> exists j: nat :: FirstMinimal(w, w.desk, m, j) && w.desk[j].id == r.value)
  {
    NomScanFirstMinimal(w, w.desk, m, None);
  }
}

=== FILE: rules.dfy ===
/** The three rules of one worker's turn, each stated on its own: which
    rule fires is decided by the finished pearls on the desk, then by the
    neighbour choice, and each rule's effect on the actions, the projected
    counts and the path memory is spelled out. */
module Rules {
  import opened Wrappers
  import opened Errors
  import opened Models
  import opened Abilities
  import opened NeighborGraph
  import opened Routing
  import opened Decide

  /** No finished pearl is returned: the worker is the gatekeeper or has
      no finished pearl. */
  predicate NoReturn(w: Worker)
  {
    w.id == GatekeeperId || forall j :: 0 <= j < |w.desk| ==> !w.desk[j].Finished()
  }

  lemma ReturnCandidateFirst(w: Worker, k: nat)
    requires w.id != GatekeeperId
    requires k < |w.desk| && w.desk[k].Finished()
    requires forall j :: 0 <= j < k ==> !w.desk[j].Finished()
    ensures ReturnCandidate(w) == Some(w.desk[k].id)
  {
    var f := FirstFinished(w.desk);
    assert f.Some?;
    assert f.value == k;
  }

  /** Rule 1: a worker other than the gatekeeper holding a finished pearl
      passes the first one back to the worker on top of its path, pops that
      worker, and leaves the counts alone; a missing or empty path is an
      error. Neighbours are not consulted. */
  lemma ActReturnsFinished(ws: seq<Worker>, m: AbilityMap, g: Graph, w: Worker, d: Decision, k: nat)
    requires w.id in d.counts && d.counts[w.id] > 0
    requires w.id != GatekeeperId
    requires k < |w.desk| && w.desk[k].Finished()
    requires forall j :: 0 <= j < k ==> !w.desk[j].Finished()
    ensures var pid := w.desk[k].id;
            var r := Act(ws, m, g, w, d);
            && (pid !in d.paths ==> r == Failure(MissingPath(pid)))
            && (pid in d.paths && |d.paths[pid]| == 0 ==> r == Failure(EmptyPath(pid)))
            && (pid in d.paths && |d.paths[pid]| > 0 ==>
                  var stack := d.paths[pid];
                  && r.Success?
                  && r.value.actions[w.id] == Pass(w.id, pid, stack[|stack| - 1])
                  && r.value.paths.Keys == d.paths.Keys
                  && r.value.paths[pid] + [stack[|stack| - 1]] == stack
                  && (forall q :: q in d.paths && q != pid ==> r.value.paths[q] == d.paths[q])
                  && r.value.counts == d.counts)
  {
    ReturnCandidateFirst(w, k);
  }

  /** Rule 2: with nothing to return and a chosen neighbour, the worker
      passes the chosen pearl to it; the neighbour is never the worker
      itself, one unit of projected count moves from the worker to the
      neighbour (which was idle), nothing else changes, and the worker is
      pushed on the pearl's path so that a later pop brings the pearl back
      to it. */
  lemma ActOffloads(ws: seq<Worker>, m: AbilityMap, g: Graph, w: Worker, d: Decision, t: Target)
    requires w.id in d.counts && d.counts[w.id] > 0
    requires NoReturn(w)
    requires BestNeighbor(ws, w, d.counts, m, g) == Success(Some(t))
    ensures var r := Act(ws, m, g, w, d);
            && r.Success?
            && r.value.actions[w.id] == Pass(w.id, t.pearlId, t.workerId)
            && t.workerId != w.id
            && r.value.counts.Keys == d.counts.Keys
            && r.value.counts[w.id] == d.counts[w.id] - 1
            && d.counts[t.workerId] == 0 && r.value.counts[t.workerId] == 1
            && (forall x :: x in d.counts && x != w.id && x != t.workerId ==> r.value.counts[x] == d.counts[x])
            && Pop(r.value.paths, t.pearlId) ==
                 Success((w.id, d.paths[t.pearlId := if t.pearlId in d.paths then d.paths[t.pearlId] else []]))
  {
    ActIsOffload(ws, m, g, w, d, t);
    OffloadEffect(w, t, d);
  }

  lemma ActIsOffload(ws: seq<Worker>, m: AbilityMap, g: Graph, w: Worker, d: Decision, t: Target)
    requires w.id in d.counts && d.counts[w.id] > 0
    requires NoReturn(w)
    requires BestNeighbor(ws, w, d.counts, m, g) == Success(Some(t))
    ensures t.workerId in d.counts && d.counts[t.workerId] == 0
    ensures Act(ws, m, g, w, d) == Success(Offload(w, t, d))
  {
    assert ReturnCandidate(w).None?;
  }

  lemma OffloadEffect(w: Worker, t: Target, d: Decision)
    requires w.id in d.counts && d.counts[w.id] > 0
    requires t.workerId in d.counts && d.counts[t.workerId] == 0
    ensures var r := Offload(w, t, d);
            && r.actions[w.id] == Pass(w.id, t.pearlId, t.workerId)
            && t.workerId != w.id
            && r.counts.Keys == d.counts.Keys
            && r.counts[w.id] == d.counts[w.id] - 1
            && r.counts[t.workerId] == 1
            && (forall x :: x in d.counts && x != w.id && x != t.workerId ==> r.counts[x] == d.counts[x])
            && Pop(r.paths, t.pearlId) ==
                 Success((w.id, d.paths[t.pearlId := if t.pearlId in d.paths then d.paths[t.pearlId] else []]))
  {
    PopAfterPush(d.paths, t.pearlId, w.id);
  }

  /** Rule 3: with nothing to return and no neighbour chosen, the worker
      noms the first unfinished pearl of least time, leaving counts and
      paths alone. It fails with nothing to nom exactly when every desk
      pearl is finished, and with a lookup error when a pearl cannot be
      timed. */
  lemma ActNoms(ws: seq<Worker>, m: AbilityMap, g: Graph, w: Worker, d: Decision)
    requires w.id in d.counts && d.counts[w.id] > 0
    requires NoReturn(w)
    requires BestNeighbor(ws, w, d.counts, m, g) == Success(None)
    ensures var r := Act(ws, m, g, w, d);
            && (!AllNomOk(w, w.desk, m) ==> r.Failure? && IsLookupError(r.error))
            && (AllNomOk(w, w.desk, m) ==>
                  && (r == Failure(NothingToNom(w.id)) <==> AllFinished(w.desk))
                  && (!AllFinished(w.desk) ==>
                        && r.Success?
                        && r.value.counts == d.counts && r.value.paths == d.paths
                        && exists j: nat :: FirstMinimal(w, w.desk, m, j)
                                           && r.value.actions[w.id] == Nom(w.id, w.desk[j].id)))
  {
    assert ReturnCandidate(w).None?;
    if AllNomOk(w, w.desk, m) {
      BestPearlToNomIsFirstMinimal(w, m);
    }
  }

  /** When a turn succeeds: rule 1 needs the returned pearl's path to be
      present and non-empty; otherwise the neighbour choice must succeed,
      and then either it picks a target or rule 3 has an unfinished pearl
      whose lookups all succeed. */
  lemma ActSucceeds(ws: seq<Worker>, m: AbilityMap, g: Graph, w: Worker, d: Decision)
    requires w.id in d.counts && d.counts[w.id] > 0
    ensures Act(ws, m, g, w, d).Success? <==>
              if !NoReturn(w) then
                var pid := ReturnCandidate(w).value;
                pid in d.paths && |d.paths[pid]| > 0
              else
                var best := BestNeighbor(ws, w, d.counts, m, g);
                best.Success? && (best.value.Some? || (AllNomOk(w, w.desk, m) && !AllFinished(w.desk)))
  {
    if NoReturn(w) {
      assert ReturnCandidate(w).None?;
    } else {
      assert ReturnCandidate(w).Some?;
    }
  }

  /** A failed neighbour choice fails the turn with the same error. */
  lemma ActNeighborFailure(ws: seq<Worker>, m: AbilityMap, g: Graph, w: Worker, d: Decision)
    requires w.id in d.counts && d.counts[w.id] > 0
    requires NoReturn(w)
    requires BestNeighbor(ws, w, d.counts, m, g).Failure?
    ensures Act(ws, m, g, w, d) == Failure(BestNeighbor(ws, w, d.counts, m, g).error)
  {
    assert ReturnCandidate(w).None?;
  }
}

=== FILE: scenarios.dfy ===
/** Concrete runs of the model on the fixtures of the repository's unit
    tests: a gatekeeper with an empty desk and a Matrix worker holding a
    12-thick green pearl and a finished pearl, joined by one edge. The
    ability table is not part of the model; the scenarios only assume the
    two entries the tests rely on (Vector/Green 5, Matrix/Green 2). */
module Scenarios {
  import opened Wrappers
  import opened Errors
  import opened Models
  import opened Abilities
  import opened Timing
  import opened NeighborGraph
  import opened Routing
  import opened Decide
  import opened Pipeline
  import opened Encoder
  import Rules

  const GreenPearl: Pearl := Pearl(12345, [Layer("Green", 12)])
  const DonePearl: Pearl := Pearl(67890, [])
  const Gatekeeper: Worker := Worker(0, "Vector", [])
  const MatrixWorker: Worker := Worker(1, "Matrix", [GreenPearl, DonePearl])
  const BasicWorkers: seq<Worker> := [Gatekeeper, MatrixWorker]

  predicate TestTable(m: AbilityMap)
  {
    m.vector.green == 5 && m.matrix.green == 2
  }

  lemma WorkerIdsExample()
    ensures WorkerIds(BasicWorkers) == [0, 1]
    ensures WorkerIds([]) == []
  {
    TwoWorkerIds(BasicWorkers);
  }

  lemma PearlCountsExample()
    ensures PearlCounts(BasicWorkers) == map[0 := 0, 1 := 2]
  {
    TwoWorkerCounts(BasicWorkers);
  }

  lemma TwoWorkerCounts(ws: seq<Worker>)
    requires TwoWorkers(ws)
    ensures PearlCounts(ws) == map[0 := |ws[0].desk|, 1 := |ws[1].desk|]
  {
    PearlCountsDistinct(ws);
    assert IdSet(ws) == {0, 1} by {
      assert ws[0].id == 0 && ws[1].id == 1;
    }
  }

  lemma NeighborGraphExample()
    ensures BuildNeighborGraph([[0, 1]], BasicWorkers) == Success(map[0 := [1], 1 := [0]])
  {
    OneEdgeGraph(BasicWorkers);
  }

  /** Two workers 0 and 1 joined by one edge. */
  predicate TwoWorkers(ws: seq<Worker>)
  {
    |ws| == 2 && ws[0].id == 0 && ws[1].id == 1
  }

  lemma TwoWorkerIds(ws: seq<Worker>)
    requires TwoWorkers(ws)
    ensures WorkerIds(ws) == [0, 1]
  {
    var ids: seq<nat> := [0, 1];
    assert Ids(ws) == ids;
    assert ids[1..] == [1] && ids[1..][1..] == [];
    assert SortIds(ids[1..]) == [1];
    assert SortIds(ids) == Insert(0, [1]) == [0, 1];
  }

  lemma OneEdgeGraph(ws: seq<Worker>)
    requires TwoWorkers(ws)
    ensures BuildNeighborGraph([[0, 1]], ws) == Success(map[0 := [1], 1 := [0]])
  {
    TwoWorkerIds(ws);
    var edges: seq<Edge> := [[0, 1]];
    assert edges[1..] == [];
    assert Adjacent(0, edges) == [1] && Adjacent(1, edges) == [0];
    assert ValidEdge(edges[0], [0, 1]);
    assert FirstEdgeError(edges, [0, 1]) == None;
    var r := BuildNeighborGraph(edges, ws);
    assert r.Success?;
    assert r.value.Keys == {0, 1} by {
      assert ws[0].id == 0 && ws[1].id == 1;
    }
    assert r.value[0] == [1] && r.value[1] == [0];
    assert r.value == map[0 := [1], 1 := [0]];
  }

  /** The second edge names worker 2, which does not exist. */
  lemma BadNeighborListExample()
    ensures BuildNeighborGraph([[0, 1], [1, 2]], BasicWorkers) == Failure(UnknownWorker(2))
  {
    WorkerIdsExample();
  }

  lemma TimeExample(m: AbilityMap)
    requires TestTable(m)
    ensures TimeToProcess(GreenPearl, Gatekeeper, m) == Success(3)
    ensures TimeToProcess(GreenPearl, MatrixWorker, m) == Success(6)
  {
    SingleLayerTime(Layer("Green", 12), "Vector", m);
    SingleLayerTime(Layer("Green", 12), "Matrix", m);
    CeilDivLeast(12, 5, 3);
    CeilDivLeast(12, 2, 6);
  }

  lemma EmptyNeighborsExample()
    ensures EmptyNeighbors(Gatekeeper, PearlCounts(BasicWorkers), map[0 := [1], 1 := [0]]) == Success([])
    ensures EmptyNeighbors(MatrixWorker, PearlCounts(BasicWorkers), map[0 := [1], 1 := [0]]) == Success([0])
  {
    PearlCountsExample();
    var counts: Counts := map[0 := 0, 1 := 2];
    var ns: seq<nat> := [0];
    assert ns[1..] == [];
    assert RetainIdle(ns[1..], counts) == Success([]);
    assert [ns[0]] + [] == ns;
    assert RetainIdle(ns, counts) == Success([0]);
    var ms: seq<nat> := [1];
    assert ms[1..] == [];
    assert RetainIdle(ms, counts) == Success([]);
  }

  lemma EligibleExample()
    ensures Eligible(BasicWorkers, map[0 := 0, 1 := 2]) == [MatrixWorker]
  {
    SecondOnlyEligible(BasicWorkers, map[0 := 0, 1 := 2]);
  }

  /** Of two workers, only the second holds pearls. */
  lemma SecondOnlyEligible(ws: seq<Worker>, counts: Counts)
    requires TwoWorkers(ws) && 0 in counts && 1 in counts
    requires counts[0] == 0 && counts[1] != 0
    ensures Eligible(ws, counts) == [ws[1]]
  {
    IdSetCons(ws);
    IdSetCons(ws[1..]);
    var tail := ws[1..];
    assert tail == [ws[1]] && tail[1..] == [];
    assert Eligible(tail[1..], counts) == [];
    assert Eligible(tail, counts) == [ws[1]];
  }

  /** Of two workers, only the first holds pearls. */
  lemma FirstOnlyEligible(ws: seq<Worker>, counts: Counts)
    requires TwoWorkers(ws) && 0 in counts && 1 in counts
    requires counts[0] != 0 && counts[1] == 0
    ensures Eligible(ws, counts) == [ws[0]]
  {
    IdSetCons(ws);
    IdSetCons(ws[1..]);
    var tail := ws[1..];
    assert tail == [ws[1]] && tail[1..] == [];
    assert Eligible(tail[1..], counts) == [];
    assert Eligible(tail, counts) == [];
  }

  /** The tick a single turn amounts to: its actions and paths, or its
      error. */
  function TickOf(r: Result<Decision, Error>): Result<TickResult, Error>
  {
    match r
    case Success(d) => Success(TickResult(d.actions, d.paths))
    case Failure(e) => Failure(e)
  }

  /** A tick in which exactly one worker holds pearls comes down to that
      worker's turn. */
  lemma OneBusyTick(st: State, m: AbilityMap, g: Graph, paths: Paths, w: Worker, counts: Counts)
    requires DistinctIds(st.workers)
    requires BuildNeighborGraph(st.neighborMap, st.workers) == Success(g)
    requires PearlCounts(st.workers) == counts && w.id in counts && counts[w.id] > 0
    requires Eligible(st.workers, counts) == [w]
    ensures ProcessTick(st, m, paths) == TickOf(Act(st.workers, m, g, w, Decision(map[], counts, paths)))
  {
    EligibleReady(st.workers);
    FoldSingle(st.workers, m, g, w, Decision(map[], counts, paths));
  }

  /** A queue of one worker is that worker's turn. */
  lemma FoldSingle(ws: seq<Worker>, m: AbilityMap, g: Graph, w: Worker, d: Decision)
    requires FoldReady([w], d.counts) && w.id in d.counts && d.counts[w.id] > 0
    ensures Fold(ws, m, g, [w], d) == Act(ws, m, g, w, d)
  {
    var r := Act(ws, m, g, w, d);
    assert [w][1..] == [];
    if r.Success? {
      assert Fold(ws, m, g, [w][1..], r.value) == Success(r.value);
    }
  }

  /** Two workers joined by one edge, of which only the first holds
      pearls: the tick is its turn. */
  lemma FirstWorkerTick(st: State, a: Worker, b: Worker, m: AbilityMap, paths: Paths)
    requires st.workers == [a, b] && a.id == 0 && b.id == 1 && st.neighborMap == [[0, 1]]
    requires |a.desk| > 0 && |b.desk| == 0
    ensures ProcessTick(st, m, paths)
            == TickOf(Act([a, b], m, map[0 := [1], 1 := [0]], a, Decision(map[], map[0 := |a.desk|, 1 := 0], paths)))
  {
    var ws := st.workers;
    var counts: Counts := map[0 := |a.desk|, 1 := 0];
    OneEdgeGraph(ws);
    TwoWorkerCounts(ws);
    FirstOnlyEligible(ws, counts);
    OneBusyTick(st, m, map[0 := [1], 1 := [0]], paths, a, counts);
  }

  /** The same with only the second worker holding pearls. */
  lemma SecondWorkerTick(st: State, a: Worker, b: Worker, m: AbilityMap, paths: Paths)
    requires st.workers == [a, b] && a.id == 0 && b.id == 1 && st.neighborMap == [[0, 1]]
    requires |a.desk| == 0 && |b.desk| > 0
    ensures ProcessTick(st, m, paths)
            == TickOf(Act([a, b], m, map[0 := [1], 1 := [0]], b, Decision(map[], map[0 := 0, 1 := |b.desk|], paths)))
  {
    var ws := st.workers;
    var counts: Counts := map[0 := 0, 1 := |b.desk|];
    OneEdgeGraph(ws);
    TwoWorkerCounts(ws);
    SecondOnlyEligible(ws, counts);
    OneBusyTick(st, m, map[0 := [1], 1 := [0]], paths, b, counts);
  }

  /** The Matrix worker's turn: it returns the finished pearl 67890. */
  lemma ReturnActExample(m: AbilityMap)
    ensures Act(BasicWorkers, m, map[0 := [1], 1 := [0]], MatrixWorker,
                Decision(map[], map[0 := 0, 1 := 2], map[67890 := [0]]))
            == Success(Decision(map[1 := Pass(1, 67890, 0)], map[0 := 0, 1 := 2], map[67890 := []]))
  {
    var d := Decision(map[], map[0 := 0, 1 := 2], map[67890 := [0]]);
    Rules.ReturnCandidateFirst(MatrixWorker, 1);
    assert MatrixWorker.desk[1].id == 67890;
    var popped := Pop(d.paths, 67890);
    assert popped.value.1[67890] + [popped.value.0] == [0];
    assert popped.value.1.Keys == {67890} && popped.value.1[67890] == [];
    assert popped.value.1 == map[67890 := []];
  }

  /** The Matrix worker holds the finished pearl 67890, which came to it
      from the gatekeeper: it passes the pearl back and pops the path. */
  lemma ReturnTickExample(m: AbilityMap)
    ensures ProcessTick(State(BasicWorkers, [[0, 1]], 0), m, map[67890 := [0]])
            == Success(TickResult(map[1 := Pass(1, 67890, 0)], map[67890 := []]))
  {
    ReturnActExample(m);
    SecondWorkerTick(State(BasicWorkers, [[0, 1]], 0), Gatekeeper, MatrixWorker, m, map[67890 := [0]]);
  }

  const SlowHolder: Worker := Worker(0, "Matrix", [GreenPearl])
  const FastIdle: Worker := Worker(1, "Vector", [])
  const HandOff: State := State([SlowHolder, FastIdle], [[0, 1]], 0)

  /** The Vector worker is twice as fast on green, so the Matrix worker
      hands it its only pearl. */
  lemma BestNeighborExample(m: AbilityMap)
    requires TestTable(m)
    ensures BestNeighbor(HandOff.workers, SlowHolder, map[0 := 1, 1 := 0], m, map[0 := [1], 1 := [0]])
            == Success(Some(Target(1, 12345)))
  {
    var ws := HandOff.workers;
    var counts: Counts := map[0 := 1, 1 := 0];
    var ns: seq<nat> := [1];
    assert ns[1..] == [];
    assert [ns[0]] + [] == ns;
    assert RetainIdle(ns, counts) == Success([1]);
    assert EmptyNeighbors(SlowHolder, counts, map[0 := [1], 1 := [0]]) == Success(ns);
    assert TimeToProcess(GreenPearl, SlowHolder, m) == Success(6) && TimeToProcess(GreenPearl, FastIdle, m) == Success(3) by {
      TimeExample(m);
    }
    assert FindWorker(ws, 1) == Some(FastIdle);
    var desk := SlowHolder.desk;
    assert desk[1..] == [];
    assert ScanDesk(ws, SlowHolder, 1, desk, m, None) == Success(Some(Target(1, 12345)));
    assert ScanNeighbors(ws, SlowHolder, ns[1..], m, Some(Target(1, 12345))) == Success(Some(Target(1, 12345)));
    assert ScanNeighbors(ws, SlowHolder, ns, m, None) == Success(Some(Target(1, 12345)));
  }

  /** The Matrix worker's turn: pass, move one unit of count, push. */
  lemma HandOffActExample(m: AbilityMap)
    requires TestTable(m)
    ensures Act(HandOff.workers, m, map[0 := [1], 1 := [0]], SlowHolder, Decision(map[], map[0 := 1, 1 := 0], map[]))
            == Success(Decision(map[0 := Pass(0, 12345, 1)], map[0 := 0, 1 := 1], map[12345 := [0]]))
  {
    var ws := HandOff.workers;
    var g: Graph := map[0 := [1], 1 := [0]];
    var d := Decision(map[], map[0 := 1, 1 := 0], map[]);
    BestNeighborExample(m);
    Rules.ActOffloads(ws, m, g, SlowHolder, d, Target(1, 12345));
    var r := Act(ws, m, g, SlowHolder, d);
    var d' := Decision(map[0 := Pass(0, 12345, 1)], map[0 := 0, 1 := 1], map[12345 := [0]]);
    assert r.value.actions == d'.actions by {
      assert r.value.actions.Keys == {0};
    }
    assert r.value.counts == d'.counts;
    assert r.value.paths == d'.paths by {
      assert Pop(r.value.paths, 12345) == Success((0, map[12345 := []]));
      assert r.value.paths.Keys == {12345};
      assert [] + [0] == r.value.paths[12345];
    }
  }

  /** Tick one: the hand-off, with the Matrix worker pushed on the pearl's
      path. */
  lemma HandOffTickExample(m: AbilityMap)
    requires TestTable(m)
    ensures ProcessTick(HandOff, m, map[]) == Success(TickResult(map[0 := Pass(0, 12345, 1)], map[12345 := [0]]))
  {
    HandOffActExample(m);
    FirstWorkerTick(HandOff, SlowHolder, FastIdle, m, map[]);
  }

  const FinishedGate: Worker := Worker(0, "Vector", [DonePearl, GreenPearl])
  const IdleMatrix: Worker := Worker(1, "Matrix", [])
  const GateHoldsFinished: seq<Worker> := [FinishedGate, IdleMatrix]

  /** The gatekeeper never returns a finished pearl, but when it holds more
      than one pearl a finished one ties with any idle neighbour (both take
      0 ticks) and so qualifies for an offload: it is handed out. */
  lemma GatekeeperPassesFinishedExample(m: AbilityMap)
    requires TestTable(m)
    ensures BestNeighbor(GateHoldsFinished, FinishedGate, map[0 := 2, 1 := 0], m, map[0 := [1], 1 := [0]])
            == Success(Some(Target(1, 67890)))
    ensures var r := Act(GateHoldsFinished, m, map[0 := [1], 1 := [0]], FinishedGate,
                         Decision(map[], map[0 := 2, 1 := 0], map[]));
            r.Success? && r.value.actions[0] == Pass(0, 67890, 1)
  {
    var ws := GateHoldsFinished;
    var counts: Counts := map[0 := 2, 1 := 0];
    var g: Graph := map[0 := [1], 1 := [0]];
    var ns: seq<nat> := [1];
    assert ns[1..] == [];
    assert [ns[0]] + [] == ns;
    assert RetainIdle(ns, counts) == Success([1]);
    assert EmptyNeighbors(FinishedGate, counts, g) == Success(ns);
    TimeExample(m);
    assert TimeToProcess(GreenPearl, FinishedGate, m) == Success(3);
    assert TimeToProcess(GreenPearl, IdleMatrix, m) == Success(6);
    assert TimeToProcess(DonePearl, FinishedGate, m) == Success(0);
    assert TimeToProcess(DonePearl, IdleMatrix, m) == Success(0);
    assert FindWorker(ws, 1) == Some(IdleMatrix);
    var desk := FinishedGate.desk;
    assert desk[1..] == [GreenPearl] && desk[1..][1..] == [];
    assert ScanDesk(ws, FinishedGate, 1, desk[1..], m, Some(Target(1, 67890))) == Success(Some(Target(1, 67890)));
    assert ScanDesk(ws, FinishedGate, 1, desk, m, None) == Success(Some(Target(1, 67890)));
    assert ScanNeighbors(ws, FinishedGate, ns[1..], m, Some(Target(1, 67890))) == Success(Some(Target(1, 67890)));
    assert ScanNeighbors(ws, FinishedGate, ns, m, None) == Success(Some(Target(1, 67890)));
    Rules.ActOffloads(ws, m, g, FinishedGate, Decision(map[], counts, map[]), Target(1, 67890));
  }

  const Holder: Worker := Worker(1, "Vector", [Pearl(12345, [])])
  const Returned: State := State([Worker(0, "Matrix", []), Holder], [[0, 1]], 0)

  /** The Vector worker's turn: return the finished pearl, pop the path. */
  lemma ReturnedActExample(m: AbilityMap)
    ensures Act(Returned.workers, m, map[0 := [1], 1 := [0]], Holder,
                Decision(map[], map[0 := 0, 1 := 1], map[12345 := [0]]))
            == Success(Decision(map[1 := Pass(1, 12345, 0)], map[0 := 0, 1 := 1], map[12345 := []]))
  {
    var d := Decision(map[], map[0 := 0, 1 := 1], map[12345 := [0]]);
    Rules.ReturnCandidateFirst(Holder, 0);
    var popped := Pop(d.paths, 12345);
    assert popped.value.1[12345] + [popped.value.0] == [0];
    assert popped.value.1.Keys == {12345} && popped.value.1[12345] == [];
    assert popped.value.1 == map[12345 := []];
  }

  /** Tick two: the pearl is finished on the Vector worker, which passes it
      back along the recorded path. */
  lemma ReturnedTickExample(m: AbilityMap)
    ensures ProcessTick(Returned, m, map[12345 := [0]])
            == Success(TickResult(map[1 := Pass(1, 12345, 0)], map[12345 := []]))
  {
    ReturnedActExample(m);
    SecondWorkerTick(Returned, Worker(0, "Matrix", []), Holder, m, map[12345 := [0]]);
  }

  lemma RunCons(st: State, rest: seq<State>, m: AbilityMap, paths: Paths,
                tick: TickResult, tail: (seq<map<nat, Action>>, Paths))
    requires DistinctIds(st.workers) && AllDistinct(rest)
    requires ProcessTick(st, m, paths) == Success(tick)
    requires Run(rest, m, tick.paths) == Success(tail)
    ensures AllDistinct([st] + rest)
    ensures Run([st] + rest, m, paths) == Success(([tick.actions] + tail.0, tail.1))
  {
    AllDistinctAppend([st], rest);
    assert ([st] + rest)[0] == st && ([st] + rest)[1..] == rest;
  }

  lemma RunSingle(st: State, m: AbilityMap, paths: Paths)
    requires DistinctIds(st.workers)
    requires ProcessTick(st, m, paths).Success?
    ensures AllDistinct([st])
    ensures Run([st], m, paths) ==
              Success(([ProcessTick(st, m, paths).value.actions], ProcessTick(st, m, paths).value.paths))
  {
    assert [st][1..] == [];
    assert AllDistinct([st]);
    var tick := ProcessTick(st, m, paths).value;
    assert Run([], m, tick.paths) == Success(([], tick.paths));
    assert [tick.actions] + [] == [tick.actions];
  }

  /** Both ticks in one run: the pearl goes out and comes back, and its
      path ends empty. */
  lemma RoundTripRunExample(m: AbilityMap)
    requires TestTable(m)
    ensures AllDistinct([HandOff] + [Returned])
    ensures Run([HandOff] + [Returned], m, map[])
            == Success(([map[0 := Pass(0, 12345, 1)]] + [map[1 := Pass(1, 12345, 0)]], map[12345 := []]))
  {
    assert DistinctIds(HandOff.workers) && DistinctIds(Returned.workers);
    HandOffTickExample(m);
    ReturnedTickExample(m);
    RunSingle(Returned, m, map[12345 := [0]]);
    RunCons(HandOff, [Returned], m, map[],
            TickResult(map[0 := Pass(0, 12345, 1)], map[12345 := [0]]),
            ([map[1 := Pass(1, 12345, 0)]], map[12345 := []]));
  }

  lemma SingleEntryLine(id: nat, a: Action)
    ensures GetActionString(map[id := a], [id]) == "{" + EntryString(id, a) + "}"
  {
    var order: seq<nat> := [id];
    assert order[1..] == [];
    var entry := EntryString(id, a);
    assert EntriesWithCommas(map[id := a], order) == entry + ",";
    var line := "{" + (entry + ",");
    assert line[..|line| - 1] == "{" + entry;
  }

  lemma NomEntryExample()
    ensures EntryString(0, Nom(0, 7)) == "\"0\":{\"Nom\":7}"
  {
    assert NatToString(0) == "0" && NatToString(7) == "7";
  }

  /** A one-action line: worker 0 noms pearl 7. */
  lemma NomLineExample()
    ensures GetActionString(map[0 := Nom(0, 7)], [0]) == "{\"0\":{\"Nom\":7}}"
  {
    NomEntryExample();
    SingleEntryLine(0, Nom(0, 7));
    var entry := "\"0\":{\"Nom\":7}";
    assert "{" + entry + "}" == "{\"0\":{\"Nom\":7}}";
  }
}

=== FILE: timing.dfy ===
/** How many ticks a worker needs to dissolve a whole pearl: over the
    pearl's layers, the sum of each layer's thickness divided by the
    worker's rate for that colour, rounded up. */
module Timing {
  import opened Wrappers
  import opened Errors
  import opened Models
  import opened Abilities

  /** Ceiling division on naturals: the least `q` with `q * r >= t`. */
  function CeilDiv(t: nat, r: Rate): (q: nat)
    ensures q * r >= t
    ensures (q - 1) * r < t
  {
    var q := (t + r - 1) / r;
    var rem := (t + r - 1) % r;
    assert t + r - 1 == q * r + rem;
    assert q * r - r == (q - 1) * r;
    q
  }

  lemma MulMonotone(a: int, b: int, r: int)
    requires a <= b && r >= 0
    ensures a * r <= b * r
  {
  }

  /** `CeilDiv` is below every `q` that covers `t`. */
  lemma CeilDivLeast(t: nat, r: Rate, q: nat)
    requires q * r >= t
    ensures CeilDiv(t, r) <= q
  {
    var c := CeilDiv(t, r);
    if c > q {
      MulMonotone(q, c - 1, r);
    }
  }

  /** Thicker layers never take fewer ticks. */
  lemma CeilDivMonotone(t1: nat, t2: nat, r: Rate)
    requires t1 <= t2
    ensures CeilDiv(t1, r) <= CeilDiv(t2, r)
  {
    CeilDivLeast(t1, r, CeilDiv(t2, r));
  }

  /** A higher rate never takes more ticks. */
  lemma CeilDivAntitone(t: nat, slow: Rate, fast: Rate)
    requires slow <= fast
    ensures CeilDiv(t, fast) <= CeilDiv(t, slow)
  {
    var q := CeilDiv(t, slow);
    MulMonotone(slow, fast, q);
    CeilDivLeast(t, fast, q);
  }

  /** The time a worker of `flavor` needs for `layers`, looking each layer's
      rate up in the table in layer order. */
  function LayersTime(layers: seq<Layer>, flavor: string, m: AbilityMap): (r: Result<nat, Error>)
    ensures r.Success? <==>
              |layers| == 0 || (flavor in FlavorNames && forall i :: 0 <= i < |layers| ==> layers[i].color in ColorNames)
    ensures r.Failure? ==> IsLookupError(r.error)
  {
    if |layers| == 0 then Success(0)
    else
      var rate :- RateOf(m, flavor, layers[0].color);
      var rest :- LayersTime(layers[1..], flavor, m);
      Success(CeilDiv(layers[0].thickness, rate) + rest)
  }

  /** `get_time_to_process(pearl, worker, ability_map)`. */
  function TimeToProcess(p: Pearl, w: Worker, m: AbilityMap): (r: Result<nat, Error>)
    ensures r.Success? <==>
              p.Finished() || (w.flavor in FlavorNames && forall i :: 0 <= i < |p.layers| ==> p.layers[i].color in ColorNames)
    ensures r.Failure? ==> IsLookupError(r.error)
  {
    LayersTime(p.layers, w.flavor, m)
  }

  /** A pearl without layers takes no time, whatever the worker's flavour. */
  lemma TimeOfFinished(p: Pearl, w: Worker, m: AbilityMap)
    requires p.Finished()
    ensures TimeToProcess(p, w, m) == Success(0)
  {
  }

  /** The time of a concatenation of layer lists is the sum of the parts. */
  lemma {:induction false} LayersTimeAppend(a: seq<Layer>, b: seq<Layer>, flavor: string, m: AbilityMap)
    requires LayersTime(a, flavor, m).Success? && LayersTime(b, flavor, m).Success?
    ensures LayersTime(a + b, flavor, m) == Success(LayersTime(a, flavor, m).value + LayersTime(b, flavor, m).value)
  {
    if |a| == 0 {
      assert a + b == b;
    } else {
      assert (a + b)[0] == a[0];
      assert (a + b)[1..] == a[1..] + b;
      LayersTimeAppend(a[1..], b, flavor, m);
    }
  }

  /** The layers of `thin` are those of `thick` with each thickness at most
      the corresponding one. */
  predicate ThinnerLayers(thin: seq<Layer>, thick: seq<Layer>)
  {
    && |thin| == |thick|
    && forall i :: 0 <= i < |thin| ==>
         thin[i].color == thick[i].color && thin[i].thickness <= thick[i].thickness
  }

  /** Processing time is non-decreasing in every layer's thickness. */
  lemma {:induction false} LayersTimeMonotone(thin: seq<Layer>, thick: seq<Layer>, flavor: string, m: AbilityMap)
    requires ThinnerLayers(thin, thick)
    ensures LayersTime(thin, flavor, m).Success? == LayersTime(thick, flavor, m).Success?
    ensures LayersTime(thin, flavor, m).Success? ==>
              LayersTime(thin, flavor, m).value <= LayersTime(thick, flavor, m).value
  {
    if |thin| > 0 {
      assert ThinnerLayers(thin[1..], thick[1..]);
      LayersTimeMonotone(thin[1..], thick[1..], flavor, m);
      if RateOf(m, flavor, thin[0].color).Success? {
        CeilDivMonotone(thin[0].thickness, thick[0].thickness, RateOf(m, flavor, thin[0].color).value);
      }
    }
  }

  /** Processing time is non-increasing in the rates of the table. */
  lemma {:induction false} LayersTimeAntitone(layers: seq<Layer>, flavor: string, fast: AbilityMap, slow: AbilityMap)
    requires AtLeastAsFast(fast, slow)
    ensures LayersTime(layers, flavor, fast).Success? == LayersTime(layers, flavor, slow).Success?
    ensures LayersTime(layers, flavor, fast).Success? ==>
              LayersTime(layers, flavor, fast).value <= LayersTime(layers, flavor, slow).value
  {
    if |layers| > 0 {
      LayersTimeAntitone(layers[1..], flavor, fast, slow);
      RateOfAntitone(fast, slow, flavor, layers[0].color);
      if RateOf(fast, flavor, layers[0].color).Success? {
        CeilDivAntitone(layers[0].thickness, RateOf(slow, flavor, layers[0].color).value,
                        RateOf(fast, flavor, layers[0].color).value);
      }
    }
  }

  /** One layer takes exactly its ceiling quotient; e.g. thickness 12 at
      rate 5 takes 3 ticks. */
  lemma SingleLayerTime(l: Layer, flavor: string, m: AbilityMap)
    requires RateOf(m, flavor, l.color).Success?
    ensures LayersTime([l], flavor, m) == Success(CeilDiv(l.thickness, RateOf(m, flavor, l.color).value))
  {
    assert [l][1..] == [];
  }
}

=== FILE: wrappers.dfy ===
/** Outcomes of the engine's steps. A Rust `panic!` in the routing code
    becomes a `Failure` carrying the reason, and an absent choice (no
    neighbour, no pearl, no parse) becomes `None`. Both types support
    `:-`, so a step that panics stops the steps that follow it. */
module Wrappers {

  /** A value that may be absent. */
  datatype Option<+T> = None | Some(value: T) {
    predicate IsFailure() {
      None?
    }

    function PropagateFailure<U>(): Option<U>
      requires None?
    {
      None
    }

    function Extract(): T
      requires Some?
    {
      value
    }
  }

  /** A value, or the error that stopped the computation. */
  datatype Result<+T, +E> = Success(value: T) | Failure(error: E) {
    predicate IsFailure() {
      Failure?
    }

    function PropagateFailure<U>(): Result<U, E>
      requires Failure?
    {
      Failure(error)
    }

    function Extract(): T
      requires Success?
    {
      value
    }
  }
}
